=== FILE: README.md ===
# Donna's command brain, modelled in Dafny

Donna is an Android accessibility service that turns a spoken utterance into
UI automation. This project models its core, `DonnaAccessibilityService.kt`,
in Dafny and proves properties of the model. The core has two parts:

- The command "brain". `processCommand` tries four substring rules on the
  lower-cased utterance, in order, and the first rule that fires decides:
  1. send a WhatsApp message;
  2. play something on YouTube;
  3. open an app;
  4. scroll.

  Slot extraction is deliberately naive and is modelled exactly as written:
  - the contact is the word before the first `ko` word;
  - the message is the text after the first `bhejo` (or `msg`), trimmed;
  - the app name is the utterance with `kholo`, `open` and `donna` deleted;
  - the YouTube query is the text after `youtube` with five filler words
    deleted.
- The UI helpers the two agents are scripted from:
  - `performClick`, which falls back to the parent;
  - `clickSomething`, which clicks the first clickable text-search hit;
  - `typeText`;
  - `clickOrScrollToFind`, which scrolls at most four times;
  - `ensureSearchButtonVisible`, which goes back at most twice;
  - `openApp`, which tries an exact label match and then a substring match.

The modules follow that structure:

- `Strings` holds the Kotlin string operations the brain uses:
  - `contains`, `indexOf` and `substringAfter`;
  - `replace(word, "")` as a left-to-right, non-overlapping deletion;
  - `trim`, using the JVM's `Char.isWhitespace`;
  - `split(" ")`, which keeps empty pieces;
  - `lowercase`.
- `Commands` holds the rule table, the classifier and slot extraction.
- `Launcher` holds `openApp`.
- `Ui` holds the helpers.
- `Tasks` holds the two agent scripts, `processCommand` and the recogniser's
  result handler.
- `Lists` and `Wrappers` are small utilities.

**The foreign application's UI tree** is modelled as a stream of window
snapshots:
- Each fetch of `rootInActiveWindow` reads the next snapshot; past the end of
  the stream there is no window.
- A snapshot says what a text search returns. Each hit is the chain of
  clickable flags from the node up to the root.
- A snapshot also says whether some node holds input focus.

Every helper and script returns the trace of its effects on the device:
- `Launch(i)` starts the `i`-th installed package;
- `Click(text, hit, depth)` clicks a node found by a text search for `text`;
- `SetText(text)` types;
- `Scroll` is the swipe gesture;
- `Back` is the global back action;
- `Ready` marks when `ensureSearchButtonVisible` hands over to its
  continuation.

**What the code does with some utterances:**
- The contact is the word before the first `ko` word, and the message starts
  after the first `bhejo`. So "whatsapp bhejo ko ramesh hello there" sends
  "ko ramesh hello there" to a contact named "bhejo".
  `Commands.ContactBeforeKo` proves this.
- `processCommand` has no stop, back, home, call or context-sensitive search
  rule.
- `currentContextApp` is written by the agents and never read.
  `Tasks.ContextNeverRead` proves that it does not affect any command's
  actions.

## Model

All source paths are in `DonnaV2/app/src/main/java/com/myawesomegames/donnav2/`.

| member | source | states |
|---|---|---|
| Lists.FirstIndex | DonnaV2/app/src/main/java/com/myawesomegames/donnav2/DonnaAccessibilityService.kt:204 | `List.indexOf` as an option: a found index is the first element that matches. There is no index exactly when no element matches. |
| Strings.IndexOf | DonnaV2/app/src/main/java/com/myawesomegames/donnav2/DonnaAccessibilityService.kt:207 | An index is returned exactly when the pattern occurs, and it is the first occurrence. |
| Strings.SubstringAfter | DonnaV2/app/src/main/java/com/myawesomegames/donnav2/DonnaAccessibilityService.kt:207-208 | Without the delimiter, the whole text comes back. Otherwise the result is the suffix after the first occurrence of the delimiter. |
| Strings.SubstringAfterPrefix | DonnaV2/app/src/main/java/com/myawesomegames/donnav2/DonnaAccessibilityService.kt:207 | For `a + p + b`, the result is exactly `b` when `a` lacks `p` and the last character of `a` does not occur in `p`. |
| Strings.DeleteAll | DonnaV2/app/src/main/java/com/myawesomegames/donnav2/DonnaAccessibilityService.kt:179 | `replace(word, "")` never lengthens the text. It leaves a text without the word unchanged, and otherwise removes at least one word's length. `Strings.DeleteAllScan` gives the full characterisation. |
| Strings.DeleteAllScan | DonnaV2/app/src/main/java/com/myawesomegames/donnav2/DonnaAccessibilityService.kt:179 | `replace(word, "")` keeps the text before the first occurrence of the word and drops that occurrence. It then carries on, on the text after it. Together with the unchanged case, this fixes the result: every non-overlapping occurrence is deleted, from left to right. |
| Strings.DeleteAllUnchanged | DonnaV2/app/src/main/java/com/myawesomegames/donnav2/DonnaAccessibilityService.kt:179 | A deletion leaves the text unchanged exactly when the word does not occur in it. |
| Strings.DeleteAllAppend | DonnaV2/app/src/main/java/com/myawesomegames/donnav2/DonnaAccessibilityService.kt:179 | A deletion distributes over a seam whose left character is not part of the word. |
| Strings.DeleteWords | DonnaV2/app/src/main/java/com/myawesomegames/donnav2/DonnaAccessibilityService.kt:256 | A chain of `replace` calls never lengthens the text. It is the identity when none of the words occurs. |
| Strings.DeleteWordsAppend | DonnaV2/app/src/main/java/com/myawesomegames/donnav2/DonnaAccessibilityService.kt:256 | The chain of deletions distributes over a seam whose left character is in none of the words. |
| Strings.Trim | DonnaV2/app/src/main/java/com/myawesomegames/donnav2/DonnaAccessibilityService.kt:179 | The result has no whitespace at either end. It sits inside the input with only whitespace around it. |
| Strings.TrimUnique | DonnaV2/app/src/main/java/com/myawesomegames/donnav2/DonnaAccessibilityService.kt:179 | This is the converse: whitespace wrapped around an edge-clean text is exactly what `trim` strips. |
| Strings.TrimIdempotent | DonnaV2/app/src/main/java/com/myawesomegames/donnav2/DonnaAccessibilityService.kt:179 | Trimming twice is trimming once. |
| Strings.TrimDropsLeadingWhitespace | DonnaV2/app/src/main/java/com/myawesomegames/donnav2/DonnaAccessibilityService.kt:207 | Whitespace in front of a text does not change its trimmed form. |
| Strings.Split | DonnaV2/app/src/main/java/com/myawesomegames/donnav2/DonnaAccessibilityService.kt:199 | `split(" ")` yields at least one piece, and no piece contains a space. |
| Strings.JoinSplit | DonnaV2/app/src/main/java/com/myawesomegames/donnav2/DonnaAccessibilityService.kt:199 | Joining the pieces with single spaces gives back the text. Runs of spaces survive as empty pieces. |
| Strings.SplitJoin | DonnaV2/app/src/main/java/com/myawesomegames/donnav2/DonnaAccessibilityService.kt:199 | Splitting space-free words joined by single spaces gives back the words. |
| Strings.SplitAppend | DonnaV2/app/src/main/java/com/myawesomegames/donnav2/DonnaAccessibilityService.kt:199 | Splitting at a space concatenates the two halves' pieces. |
| Strings.Lower | DonnaV2/app/src/main/java/com/myawesomegames/donnav2/DonnaAccessibilityService.kt:110 | Lower-casing keeps the length and lower-cases each character, ASCII letters only. `openApp` uses the same function at line 409. |
| Strings.ContainsEdges | DonnaV2/app/src/main/java/com/myawesomegames/donnav2/DonnaAccessibilityService.kt:166-186 | `contains`: the empty word is in every text, a longer word is in none, and a text contains itself. `Strings.IndexOf` gives the index exactly when `Contains` holds. |
| Strings.EqualsIgnoreCase | DonnaV2/app/src/main/java/com/myawesomegames/donnav2/DonnaAccessibilityService.kt:402 | Two texts are equal ignoring case exactly when they have the same length and agree character by character after lower-casing ASCII letters. |
| Strings.LowerIdempotent | DonnaV2/app/src/main/java/com/myawesomegames/donnav2/DonnaAccessibilityService.kt:110 | Lower-casing an already lower-cased utterance changes nothing. |
| Commands.Classify | DonnaV2/app/src/main/java/com/myawesomegames/donnav2/DonnaAccessibilityService.kt:162-189 | The if-chain's command has the kind of the first rule in the table that fires, and no command when none fires. Its slots are the extracted contact, message, query or app name. |
| Commands.FirstMatchChain | DonnaV2/app/src/main/java/com/myawesomegames/donnav2/DonnaAccessibilityService.kt:165-188 | First-match-wins over the rule table is the ordered chain WhatsApp, then YouTube, then open, then scroll. |
| Commands.WhatsAppRuleSends | DonnaV2/app/src/main/java/com/myawesomegames/donnav2/DonnaAccessibilityService.kt:166-167 | An utterance that contains "whatsapp" and "bhejo" always becomes a WhatsApp send, whatever else it contains. |
| Commands.ContactName | DonnaV2/app/src/main/java/com/myawesomegames/donnav2/DonnaAccessibilityService.kt:199-210 | The contact is the non-empty word just before the first "ko" word. It is "Papa" when that word is missing or empty. It is never empty and never contains a space. |
| Commands.WordBefore | DonnaV2/app/src/main/java/com/myawesomegames/donnav2/DonnaAccessibilityService.kt:203-206 | `words[indexOf(w) - 1]` when that index is positive, and empty otherwise. |
| Commands.MessageBody | DonnaV2/app/src/main/java/com/myawesomegames/donnav2/DonnaAccessibilityService.kt:201-208 | The message is the trimmed text after the first "bhejo". Without "bhejo" it is the text after the first "msg", and without either it is "Hello". It never has whitespace at its ends. |
| Commands.OpenAppName | DonnaV2/app/src/main/java/com/myawesomegames/donnav2/DonnaAccessibilityService.kt:179 | The app name is the utterance with every "kholo", then every "open", then every "donna" deleted, and then trimmed. It is edge-clean and no longer than the utterance. When no filler occurs, it is the trimmed utterance. |
| Commands.YouTubeQuery | DonnaV2/app/src/main/java/com/myawesomegames/donnav2/DonnaAccessibilityService.kt:256 | After the first "youtube", the query is the text that follows it, with the five fillers deleted in order and then trimmed. Without "youtube", the whole utterance is used. The query is edge-clean and no longer than the text after "youtube". |
| Commands.OpenRoundTrip | DonnaV2/app/src/main/java/com/myawesomegames/donnav2/DonnaAccessibilityService.kt:178-181 | "open <name>" classifies as opening exactly `name` when the name holds no keyword. |
| Commands.YouTubeRoundTrip | DonnaV2/app/src/main/java/com/myawesomegames/donnav2/DonnaAccessibilityService.kt:253-256 | "youtube play <query>" classifies as playing exactly `query` when the query holds no filler and no "whatsapp". |
| Commands.WhatsAppRoundTrip | DonnaV2/app/src/main/java/com/myawesomegames/donnav2/DonnaAccessibilityService.kt:199-210 | "whatsapp <name> ko bhejo <message>" sends exactly `message` to exactly `name` when the name is one word other than "ko" and holds no "bhejo". |
| Commands.ContactBeforeKo | DonnaV2/app/src/main/java/com/myawesomegames/donnav2/DonnaAccessibilityService.kt:203-208 | "whatsapp bhejo ko <rest>" sends "ko <rest>" to a contact named "bhejo". |
| Commands.OpenNameSplicesFiller | DonnaV2/app/src/main/java/com/myawesomegames/donnav2/DonnaAccessibilityService.kt:179 | A single deletion pass can splice a new filler together: "kkholoholo" opens "kholo". |
| Commands.FillerInsideWordDeleted | DonnaV2/app/src/main/java/com/myawesomegames/donnav2/DonnaAccessibilityService.kt:256 | Fillers are deleted inside words too: "peppa pig" becomes "ppa pig". |
| Commands.YouTubePhraseAnyQuery | DonnaV2/app/src/main/java/com/myawesomegames/donnav2/DonnaAccessibilityService.kt:256 | For "youtube play <q>", the query is exactly `q` with the fillers deleted, trimmed. |
| Ui.PerformClick | DonnaV2/app/src/main/java/com/myawesomegames/donnav2/DonnaAccessibilityService.kt:331-338 | A click lands exactly when some node on the chain up to the root is clickable, and on the nearest such node. |
| Ui.PerformClickReachesRoot | DonnaV2/app/src/main/java/com/myawesomegames/donnav2/DonnaAccessibilityService.kt:337 | When only the root is clickable, the parent fallback climbs all the way up. |
| Ui.ClickSomething | DonnaV2/app/src/main/java/com/myawesomegames/donnav2/DonnaAccessibilityService.kt:310-328 | With no window or an empty text nothing is clicked. Otherwise the first clickable hit is clicked at its nearest clickable ancestor, and the call succeeds exactly when such a hit exists. |
| Ui.ClickSomethingActs | DonnaV2/app/src/main/java/com/myawesomegames/donnav2/DonnaAccessibilityService.kt:318 | A reported success is exactly one click, and a failure does nothing. |
| Ui.ClickSomethingIgnoresDescAndId | DonnaV2/app/src/main/java/com/myawesomegames/donnav2/DonnaAccessibilityService.kt:310-327 | The description and view-id arguments never influence the outcome. |
| Ui.TypeText | DonnaV2/app/src/main/java/com/myawesomegames/donnav2/DonnaAccessibilityService.kt:375-387 | Text is set exactly when a window exists and a node holds input focus, and it is the requested text. Otherwise nothing happens. |
| Ui.ClickFirstItemInList | DonnaV2/app/src/main/java/com/myawesomegames/donnav2/DonnaAccessibilityService.kt:390-393 | `clickFirstItemInList` does nothing on the device: its trace is empty. |
| Ui.ClickOrScrollToFind | DonnaV2/app/src/main/java/com/myawesomegames/donnav2/DonnaAccessibilityService.kt:289-306 | The hunt reads at most one snapshot more than its remaining scroll budget. A failed hunt used the whole budget. |
| Ui.HuntLooksInOrder | DonnaV2/app/src/main/java/com/myawesomegames/donnav2/DonnaAccessibilityService.kt:290-302 | Every snapshot before the last one read lacks the target. The hunt succeeds exactly when the last one shows it. |
| Ui.HuntTrace | DonnaV2/app/src/main/java/com/myawesomegames/donnav2/DonnaAccessibilityService.kt:290-305 | The hunt's actions are one scroll per miss, then the click when found. |
| Ui.HuntSucceedsIff | DonnaV2/app/src/main/java/com/myawesomegames/donnav2/DonnaAccessibilityService.kt:289-306 | From attempt 0, the hunt succeeds exactly when one of the first five snapshots shows the target. |
| Ui.HuntScrolls | DonnaV2/app/src/main/java/com/myawesomegames/donnav2/DonnaAccessibilityService.kt:295-302 | The hunt scrolls at most four times. A failed hunt is exactly four scrolls. Only its last action can be a click, and that click is on the target. |
| Ui.HuntAfterThreeScrolls | DonnaV2/app/src/main/java/com/myawesomegames/donnav2/DonnaAccessibilityService.kt:289-306 | A target first visible after three scrolls is found after exactly three scrolls. |
| Ui.EnsureSearchButtonVisible | DonnaV2/app/src/main/java/com/myawesomegames/donnav2/DonnaAccessibilityService.kt:341-361 | No back when Search is visible at once, and one back when it appears after the first. Otherwise two backs, then hand-over regardless. |
| Ui.EnsureSearchCounts | DonnaV2/app/src/main/java/com/myawesomegames/donnav2/DonnaAccessibilityService.kt:341-361 | The continuation runs exactly once, after at most two backs and no scrolls. |
| Launcher.OpenApp | DonnaV2/app/src/main/java/com/myawesomegames/donnav2/DonnaAccessibilityService.kt:396-416 | If any label equals the name ignoring case, the first such package is launched. Otherwise the first label containing the name is launched. It returns false exactly when no label contains the name. |
| Launcher.ExactIsFuzzy | DonnaV2/app/src/main/java/com/myawesomegames/donnav2/DonnaAccessibilityService.kt:402-410 | An exact match also passes the substring test. |
| Launcher.FirstExactWins | DonnaV2/app/src/main/java/com/myawesomegames/donnav2/DonnaAccessibilityService.kt:400-405 | The first exact match is the package launched. |
| Launcher.ExactBeatsEarlierFuzzy | DonnaV2/app/src/main/java/com/myawesomegames/donnav2/DonnaAccessibilityService.kt:398-414 | A later exact match beats an earlier substring match. |
| Launcher.EmptyNameOpensFirst | DonnaV2/app/src/main/java/com/myawesomegames/donnav2/DonnaAccessibilityService.kt:407-413 | An empty name launches the first package whenever no label is empty. |
| Launcher.NullLabelAnswersNull | DonnaV2/app/src/main/java/com/myawesomegames/donnav2/DonnaAccessibilityService.kt:401 | A package without application info has the label "null", so it answers to that name. |
| Tasks.ContactHunt | DonnaV2/app/src/main/java/com/myawesomegames/donnav2/DonnaAccessibilityService.kt:231-246 | The contact is found exactly when one of the five hunt snapshots shows it. Every snapshot before the last one read misses the contact. A found hunt stops at the first snapshot that shows the contact, and its actions are one scroll per miss followed by a single click on the contact. A failed hunt is four scrolls. The hunt neither goes back nor launches. |
| Tasks.SearchSteps | DonnaV2/app/src/main/java/com/myawesomegames/donnav2/DonnaAccessibilityService.kt:224-228 | The steps only click and type. The first step is a click on "Search" exactly when that snapshot shows a clickable hit for it, and it is the only click. The contact is typed exactly when the next snapshot has a focused input. It is typed once, as the last step, and nothing else is typed. |
| Tasks.SendSteps | DonnaV2/app/src/main/java/com/myawesomegames/donnav2/DonnaAccessibilityService.kt:237-241 | The steps only click and type. The message is typed first, exactly when that snapshot has a focused input. A click on "Send" comes last, exactly when the next snapshot shows a clickable hit for it. |
| Tasks.WhatsAppTask | DonnaV2/app/src/main/java/com/myawesomegames/donnav2/DonnaAccessibilityService.kt:212-250 | Nothing happens when WhatsApp is not installed. Otherwise the first action launches it, and the script finishes exactly when the contact hunt succeeds. The run starts with the launch, the back logic and the `SearchSteps`, followed at once by the hunt's actions. A finished run ends with the click on the contact, followed by exactly the `SendSteps`: the message is typed when a field has focus, and "Send" is clicked when it shows. The trace is exactly as long as these pieces, so nothing else is done. A run whose contact is not found ends with the hunt's last scroll and does nothing more. |
| Tasks.WhatsAppScript | DonnaV2/app/src/main/java/com/myawesomegames/donnav2/DonnaAccessibilityService.kt:219-250 | The trace starts with the launch, the back logic and the `SearchSteps`, followed at once by the hunt's actions. The script finishes exactly when the contact hunt succeeds. It then ends with the click on the contact, followed by exactly the `SendSteps`: the message is typed when a field has focus, and "Send" is clicked when it shows. Otherwise it stops at "not found" with the hunt's last scroll. The trace is exactly as long as the launch, back logic, `SearchSteps`, hunt and (when found) `SendSteps` together, so a failed hunt never types the message and nothing else is done. |
| Tasks.WhatsAppTaskBounds | DonnaV2/app/src/main/java/com/myawesomegames/donnav2/DonnaAccessibilityService.kt:212-250 | The task launches once and hands over once when the app is installed, and does neither otherwise. It never goes back more than twice or scrolls more than four times. |
| Tasks.YouTubeTask | DonnaV2/app/src/main/java/com/myawesomegames/donnav2/DonnaAccessibilityService.kt:253-282 | Nothing happens without YouTube. Otherwise the task launches it and finishes exactly when the search button can be clicked on the first snapshot. When it cannot, the launch is the only action. A finished run then clicks "Search", followed by exactly the `AfterSearch` steps: the query is typed when a field has focus, and a hit for it is clicked when one shows. |
| Tasks.YouTubeScript | DonnaV2/app/src/main/java/com/myawesomegames/donnav2/DonnaAccessibilityService.kt:264-281 | The launch is followed only by clicks and typing, at most three actions. A finished run clicks "Search" first, followed by exactly the `AfterSearch` steps: the query is typed when a field has focus, and a hit for it is clicked when one shows. An empty query cannot pick a suggestion. |
| Tasks.AfterSearch | DonnaV2/app/src/main/java/com/myawesomegames/donnav2/DonnaAccessibilityService.kt:268-276 | The steps only click and type, at most two actions. The query is typed first, exactly when the next snapshot has a focused input. A click on a hit for the query comes last, exactly when the snapshot after that shows one. The `clickFirstItemInList` fallback adds nothing. |
| Tasks.YouTubeTaskBounds | DonnaV2/app/src/main/java/com/myawesomegames/donnav2/DonnaAccessibilityService.kt:253-282 | The YouTube task launches at most once and never scrolls, goes back or uses the back logic. |
| Tasks.OpenActions | DonnaV2/app/src/main/java/com/myawesomegames/donnav2/DonnaAccessibilityService.kt:181 | The open branch launches exactly the package `openApp` picks, or nothing when none matches. |
| Tasks.ProcessCommand | DonnaV2/app/src/main/java/com/myawesomegames/donnav2/DonnaAccessibilityService.kt:162-189 | The utterance goes to the agent, open, scroll or nothing of the first rule that fires. Only the two agents change the context app. |
| Tasks.ProcessCommandBounds | DonnaV2/app/src/main/java/com/myawesomegames/donnav2/DonnaAccessibilityService.kt:162-189 | Any utterance on any device launches at most one app, goes back at most twice and scrolls at most four times. |
| Tasks.ContextNeverRead | DonnaV2/app/src/main/java/com/myawesomegames/donnav2/DonnaAccessibilityService.kt:41 | The context app never influences what a command does. |
| Tasks.OnResults | DonnaV2/app/src/main/java/com/myawesomegames/donnav2/DonnaAccessibilityService.kt:107-111 | An empty list of hypotheses does nothing. Otherwise the first hypothesis, lower-cased, is handled by `Tasks.ProcessCommand`, and nothing else is. |
| Tasks.OnResultsFirstOnly | DonnaV2/app/src/main/java/com/myawesomegames/donnav2/DonnaAccessibilityService.kt:107-111 | Only the first hypothesis matters, and its letter case does not. |
| Tasks.OpenWhatsAppLaunches | DonnaV2/app/src/main/java/com/myawesomegames/donnav2/DonnaAccessibilityService.kt:178-181 | "open whatsapp" is an open command, not a WhatsApp task. It launches the package labelled "WhatsApp" and leaves the context alone. |

## Left out

- The speech loop is not modelled: the recogniser set-up, restart on end or
  error, beep muting and volume handling. This is device I/O. Only
  `onResults`' choice of hypothesis is modelled.
- Text-to-speech, the status overlay and the `Toast` are not modelled. They
  only report and have no effect on the model's state.
- Overlapping utterances are not modelled. `processCommand` only schedules
  an agent's steps and returns at once. The steps of successive utterances
  can therefore interleave on the device, and nothing cancels them.
  `Tasks.ProcessCommand` gives each utterance its own, self-contained trace.
- The delays are not modelled. Each scheduled step is taken to read a fresh
  window snapshot, so the timing of the real UI is abstracted into the
  snapshot stream.
- The scroll gesture's coordinates and duration are left out. A scroll is the
  single action `Scroll`.
- `PackageManager` is not modelled:
  - The installed packages are a parameter, given as their labels in
    enumeration order.
  - A launch is `Launch(index)`.
  - A null launch intent is not modelled. For a package with no launch
    activity, `getLaunchIntentForPackage` returns null and `openApp` passes
    that null to `startActivity`, which would then fail. The model instead
    emits `Launch(index)` and reports the app as opened.
- Letter case is folded for ASCII letters only. Kotlin's `lowercase` and
  `equals(ignoreCase = true)` use full Unicode case mapping.
- `Strings.DeleteAll` requires a non-empty word. The service only ever
  deletes fixed non-empty words. Kotlin's `replace("", "")` case is therefore
  not modelled.
- `Ui.ClickSomething` gives no meaning to the description and view id. They
  are unused in the source too.
- `clickFirstItemInList` has an empty body in the source. `Ui.ClickFirstItemInList`
  is therefore the empty trace, and it appears only inside `Tasks.AfterSearch`.
- `MainActivity.kt` is not part of this model. It only opens the system
  accessibility settings.

=== FILE: Commands.dfy ===
/** The command "brain": an ordered, first-match-wins set of substring rules
    over the lower-cased utterance, and the slot extraction each rule does
    by deleting keywords and indexing words. The extraction is deliberately
    naive; it is modelled as written, imprecisions included. */
module Commands {
  import opened Wrappers
  import opened Lists
  import opened Strings

  /** What one utterance asks for. */
  datatype Command =
    | SendWhatsApp(contact: string, body: string)
    | PlayYouTube(query: string)
    | OpenApp(appName: string)
    | ScrollDown
    | NoCommand

  // ---------------------------------------------------------------------
  // The rule table
  // ---------------------------------------------------------------------

  datatype Kind = WhatsAppKind | YouTubeKind | OpenKind | ScrollKind

  /** A rule fires when the utterance contains every word of `allOf` and at
      least one word of `anyOf`. */
  datatype Rule = Rule(kind: Kind, allOf: seq<string>, anyOf: seq<string>)

  /** The rules in the order they are tried. */
  const Rules: seq<Rule> := [
    Rule(WhatsAppKind, ["whatsapp"], ["msg", "bhejo", "send"]),
    Rule(YouTubeKind, ["youtube"], ["play", "chalao", "lagao"]),
    Rule(OpenKind, [], ["kholo", "open"]),
    Rule(ScrollKind, [], ["scroll", "niche"])
  ]

  predicate Matches(rule: Rule, u: string) {
    && (forall w :: w in rule.allOf ==> Contains(u, w))
    && (exists w :: w in rule.anyOf && Contains(u, w))
  }

  /** The kind of the first rule that fires, if any. */
  function FirstMatch(u: string): Option<Kind> {
    match FirstIndex(Rules, (rule: Rule) => Matches(rule, u))
    case Some(i) => Some(Rules[i].kind)
    case None => None
  }

  function KindOf(c: Command): Option<Kind> {
    match c
    case SendWhatsApp(_, _) => Some(WhatsAppKind)
    case PlayYouTube(_) => Some(YouTubeKind)
    case OpenApp(_) => Some(OpenKind)
    case ScrollDown => Some(ScrollKind)
    case NoCommand => None
  }

  // ---------------------------------------------------------------------
  // Slot extraction
  // ---------------------------------------------------------------------

  /** Words deleted from an "open" utterance, in order. */
  const OpenFillers: seq<string> := ["kholo", "open", "donna"]

  /** Words deleted from the text after "youtube", in order. */
  const QueryFillers: seq<string> := ["pe", "play", "chalao", "lagao", "gana"]

  /** The contact used when no word precedes a "ko" word. */
  const DefaultContact: string := "Papa"

  /** The message used when neither "bhejo" nor "msg" occurs. */
  const DefaultMessage: string := "Hello"

  /** `i` is the first index of `w` in `words`. */
  predicate FirstWordAt(words: seq<string>, w: string, i: int) {
    0 <= i < |words| && words[i] == w && forall j :: 0 <= j < i ==> words[j] != w
  }

  /** Every word of a joined text occurs in the text. */
  lemma {:induction false} WordInJoin(words: seq<string>, i: nat)
    requires i < |words|
    ensures Contains(Join(words), words[i])
    decreases |words|
  {
    if i == 0 {
      if |words| == 1 {
        ContainsSelf(Join(words), words[0]);
      } else {
        assert Join(words) == words[0] + (" " + Join(words[1..]));
        ContainsInConcat(words[0], " " + Join(words[1..]), words[0]);
        ContainsSelf(words[0], words[0]);
      }
    } else {
      WordInJoin(words[1..], i - 1);
      ContainsInConcat(words[0] + " ", Join(words[1..]), words[i]);
      assert Join(words) == (words[0] + " ") + Join(words[1..]);
    }
  }

  /** The contact of a WhatsApp command: the word just before the first
      word "ko" of the utterance split on single spaces; "Papa" when that
      word is missing or empty. */
  function ContactName(u: string): (r: string)
    ensures r != "" && ' ' !in r
    ensures forall i :: FirstWordAt(Split(u), "ko", i) && i > 0 && Split(u)[i - 1] != "" ==>
      r == Split(u)[i - 1]
    ensures (forall i :: FirstWordAt(Split(u), "ko", i) ==> i == 0 || Split(u)[i - 1] == "") ==>
      r == DefaultContact
  {
    var words := Split(u);
    var name := if Contains(u, "ko") then WordBefore(words, "ko") else "";
    assert forall i :: FirstWordAt(words, "ko", i) ==> Contains(u, "ko") by {
      forall i | FirstWordAt(words, "ko", i)
        ensures Contains(u, "ko")
      {
        WordInJoin(words, i);
        JoinSplit(u);
      }
    }
    assert DefaultContact == "Papa" && ' ' !in DefaultContact;
    if name == "" then DefaultContact else name
  }

  /** `words[words.indexOf(w) - 1]` when that index is positive, else "". */
  function WordBefore(words: seq<string>, w: string): (r: string)
    ensures forall i :: FirstWordAt(words, w, i) ==> r == if i > 0 then words[i - 1] else ""
    ensures (forall i :: !FirstWordAt(words, w, i)) ==> r == ""
  {
    match FirstIndex(words, (x: string) => x == w)
    case Some(i) =>
      assert FirstWordAt(words, w, i);
      if i > 0 then words[i - 1] else ""
    case None => ""
  }

  /** The message of a WhatsApp command: the trimmed text after the first
      "bhejo", else after the first "msg", else "Hello". */
  function MessageBody(u: string): (r: string)
    ensures NoEdgeWhitespace(r)
    ensures forall k :: FirstAt(u, "bhejo", k) ==> r == Trim(u[k + 5..])
    ensures !Contains(u, "bhejo") ==> forall k :: FirstAt(u, "msg", k) ==> r == Trim(u[k + 3..])
    ensures !Contains(u, "bhejo") && !Contains(u, "msg") ==> r == DefaultMessage
  {
    assert NoEdgeWhitespace(DefaultMessage);
    if Contains(u, "bhejo") then Trim(SubstringAfter(u, "bhejo"))
    else if Contains(u, "msg") then Trim(SubstringAfter(u, "msg"))
    else DefaultMessage
  }

  /** The application named by an "open" command: the utterance with every
      "kholo", then every "open", then every "donna" deleted, trimmed. */
  function OpenAppName(u: string): (r: string)
    ensures NoEdgeWhitespace(r) && |r| <= |u|
    ensures (forall i :: 0 <= i < |OpenFillers| ==> !Contains(u, OpenFillers[i])) ==> r == Trim(u)
    ensures r == Trim(DeleteAll(DeleteAll(DeleteAll(u, "kholo"), "open"), "donna"))
  {
    var r := Trim(DeleteWords(u, OpenFillers));
    assert exists i :: TrimmedAt(DeleteWords(u, OpenFillers), r, i);
    OpenFillersChain(u);
    r
  }

  lemma OpenFillersChain(u: string)
    ensures DeleteWords(u, OpenFillers) == DeleteAll(DeleteAll(DeleteAll(u, "kholo"), "open"), "donna")
  {
    var w := OpenFillers;
    assert w[0] == "kholo" && w[1..][0] == "open" && w[1..][1..][0] == "donna" && w[1..][1..][1..] == [];
  }

  /** The query of a YouTube command: the text after the first "youtube"
      with every "pe", "play", "chalao", "lagao" and "gana" deleted in that
      order, trimmed. */
  function YouTubeQuery(u: string): (r: string)
    ensures NoEdgeWhitespace(r) && |r| <= |u|
    ensures forall k :: FirstAt(u, "youtube", k) ==> |r| <= |u| - k - 7
    ensures forall k :: FirstAt(u, "youtube", k) ==> r == Trim(DeleteWords(u[k + 7..], QueryFillers))
    ensures !Contains(u, "youtube") ==> r == Trim(DeleteWords(u, QueryFillers))
  {
    var after := SubstringAfter(u, "youtube");
    var r := Trim(DeleteWords(after, QueryFillers));
    assert exists i :: TrimmedAt(DeleteWords(after, QueryFillers), r, i);
    forall k | FirstAt(u, "youtube", k)
      ensures after == u[k + 7..]
    {
      FirstAtUnique(u, "youtube", k, |u| - |after| - 7);
    }
    r
  }

  // ---------------------------------------------------------------------
  // processCommand's classifier
  // ---------------------------------------------------------------------

  /** The rule chain of `processCommand`: WhatsApp-send, then YouTube-play,
      then open, then scroll; the first rule that fires decides, and an
      utterance no rule fires on asks for nothing. */
  function Classify(u: string): (r: Command)
    ensures KindOf(r) == FirstMatch(u)
    ensures r.SendWhatsApp? ==> r.contact == ContactName(u) && r.body == MessageBody(u)
    ensures r.PlayYouTube? ==> r.query == YouTubeQuery(u)
    ensures r.OpenApp? ==> r.appName == OpenAppName(u)
  {
    FirstMatchChain(u);
    RuleWhatsApp(u);
    RuleYouTube(u);
    RuleOpen(u);
    RuleScroll(u);
    if Contains(u, "whatsapp") && (Contains(u, "msg") || Contains(u, "bhejo") || Contains(u, "send")) then
      SendWhatsApp(ContactName(u), MessageBody(u))
    else if Contains(u, "youtube") && (Contains(u, "play") || Contains(u, "chalao") || Contains(u, "lagao")) then
      PlayYouTube(YouTubeQuery(u))
    else if Contains(u, "kholo") || Contains(u, "open") then
      OpenApp(OpenAppName(u))
    else if Contains(u, "scroll") || Contains(u, "niche") then
      ScrollDown
    else
      NoCommand
  }

  /** First-match-wins over the four rules, spelled out. */
  lemma FirstMatchChain(u: string)
    ensures FirstMatch(u) ==
      if Matches(Rules[0], u) then Some(WhatsAppKind)
      else if Matches(Rules[1], u) then Some(YouTubeKind)
      else if Matches(Rules[2], u) then Some(OpenKind)
      else if Matches(Rules[3], u) then Some(ScrollKind)
      else None
  {
    var r := FirstIndex(Rules, (rule: Rule) => Matches(rule, u));
    if Matches(Rules[0], u) {
      assert r == Some(0);
    } else if Matches(Rules[1], u) {
      assert r == Some(1);
    } else if Matches(Rules[2], u) {
      assert r == Some(2);
    } else if Matches(Rules[3], u) {
      assert r == Some(3);
    } else {
      assert forall j :: 0 <= j < |Rules| ==> !Matches(Rules[j], u);
    }
  }

  lemma RuleWhatsApp(u: string)
    ensures Matches(Rules[0], u) <==>
      Contains(u, "whatsapp") && (Contains(u, "msg") || Contains(u, "bhejo") || Contains(u, "send"))
  {
    var rule := Rules[0];
    assert rule.allOf == ["whatsapp"] && rule.anyOf == ["msg", "bhejo", "send"];
  }

  lemma RuleYouTube(u: string)
    ensures Matches(Rules[1], u) <==>
      Contains(u, "youtube") && (Contains(u, "play") || Contains(u, "chalao") || Contains(u, "lagao"))
  {
    var rule := Rules[1];
    assert rule.allOf == ["youtube"] && rule.anyOf == ["play", "chalao", "lagao"];
  }

  lemma RuleOpen(u: string)
    ensures Matches(Rules[2], u) <==> Contains(u, "kholo") || Contains(u, "open")
  {
    var rule := Rules[2];
    assert rule.allOf == [] && rule.anyOf == ["kholo", "open"];
  }

  lemma RuleScroll(u: string)
    ensures Matches(Rules[3], u) <==> Contains(u, "scroll") || Contains(u, "niche")
  {
    var rule := Rules[3];
    assert rule.allOf == [] && rule.anyOf == ["scroll", "niche"];
  }

  // ---------------------------------------------------------------------
  // Round trips: utterances built from slots give those slots back
  // ---------------------------------------------------------------------

  /** A space does not occur in any of the words. */
  predicate SpaceFree(words: seq<string>) {
    forall i :: 0 <= i < |words| ==> ' ' !in words[i]
  }

  predicate LacksAll(s: string, words: seq<string>) {
    forall i :: 0 <= i < |words| ==> !Contains(s, words[i])
  }

  /** "open <name>" opens `name` when the name holds no keyword. */
  lemma OpenRoundTrip(name: string)
    requires NoEdgeWhitespace(name)
    requires LacksAll(name, OpenFillers)
    requires !Contains(name, "whatsapp") && !Contains(name, "youtube")
    ensures Classify("open " + name) == OpenApp(name)
  {
    var u := "open " + name;
    OpenPhraseRules(name);
    OpenPhraseName(name);
    var c := Classify(u);
    assert c.OpenApp?;
  }

  lemma OpenPhraseRules(name: string)
    requires !Contains(name, "whatsapp") && !Contains(name, "youtube")
    ensures !Contains("open " + name, "whatsapp") && !Contains("open " + name, "youtube")
    ensures Contains("open " + name, "open")
  {
    LacksChar("open ", "whatsapp", 'w');
    ConcatLacks("open ", name, "whatsapp");
    LacksChar("open ", "youtube", 'y');
    ConcatLacks("open ", name, "youtube");
    ContainsSelf("open " + name, "open");
  }

  lemma OpenPhraseName(name: string)
    requires NoEdgeWhitespace(name)
    requires LacksAll(name, OpenFillers)
    ensures OpenAppName("open " + name) == name
  {
    OpenFillersSplitAtPrefix(name);
    OpenFillersOnPrefix();
    assert DeleteWords(name, OpenFillers) == name;
    TrimAfterSpaces(" ", name);
  }

  lemma OpenFillersSplitAtPrefix(name: string)
    ensures DeleteWords("open " + name, OpenFillers)
         == DeleteWords("open ", OpenFillers) + DeleteWords(name, OpenFillers)
  {
    var prefix := "open ";
    assert prefix[|prefix| - 1] == ' ';
    assert SpaceFree(OpenFillers);
    DeleteWordsAppend(prefix, name, OpenFillers);
  }

  /** Deleting the "open" words from the prefix "open " leaves a space. */
  lemma OpenFillersOnPrefix()
    ensures DeleteWords("open ", OpenFillers) == " "
  {
    LacksChar("open ", "kholo", 'k');
    var t := DeleteAll("open ", "kholo");
    assert t == "open ";
    assert t[..4] == "open" && t[4..] == " ";
    assert DeleteAll(t, "open") == DeleteAll(" ", "open") == " ";
    assert DeleteAll(" ", "donna") == " ";
    assert OpenFillers[1..][1..][1..] == [];
  }

  /** "youtube play <query>" plays `query` when the query holds no filler word. */
  lemma YouTubeRoundTrip(query: string)
    requires NoEdgeWhitespace(query)
    requires LacksAll(query, QueryFillers)
    requires !Contains(query, "whatsapp")
    ensures Classify("youtube play " + query) == PlayYouTube(query)
  {
    YouTubePhraseRules(query);
    YouTubePhraseQuery(query);
    var c := Classify("youtube play " + query);
    assert c.PlayYouTube?;
  }

  lemma YouTubePhraseRules(query: string)
    requires !Contains(query, "whatsapp")
    ensures !Contains("youtube play " + query, "whatsapp")
    ensures Contains("youtube play " + query, "youtube") && Contains("youtube play " + query, "play")
  {
    var u := "youtube play " + query;
    LacksChar("youtube play ", "whatsapp", 'w');
    ConcatLacks("youtube play ", query, "whatsapp");
    ContainsSelf(u, "youtube");
    assert u == "youtube " + ("play " + query);
    ContainsSelf("play " + query, "play");
    ContainsInConcat("youtube ", "play " + query, "play");
  }

  lemma YouTubePhraseQuery(query: string)
    requires NoEdgeWhitespace(query)
    requires LacksAll(query, QueryFillers)
    ensures YouTubeQuery("youtube play " + query) == query
  {
    AfterYouTube(query);
    FillersAroundQuery(query);
    TrimAfterSpaces("  ", query);
  }

  lemma AfterYouTube(query: string)
    ensures SubstringAfter("youtube play " + query, "youtube") == " play " + query
  {
    assert "youtube play " + query == [] + "youtube" + (" play " + query);
    SubstringAfterPrefix([], "youtube", " play " + query);
  }

  lemma FillersAroundQuery(query: string)
    requires LacksAll(query, QueryFillers)
    ensures DeleteWords(" play " + query, QueryFillers) == "  " + query
  {
    QueryFillersOnPrefix();
    FillersSplitAtPrefix(query);
  }

  lemma FillersSplitAtPrefix(query: string)
    ensures DeleteWords(" play " + query, QueryFillers)
         == DeleteWords(" play ", QueryFillers) + DeleteWords(query, QueryFillers)
  {
    var prefix := " play ";
    assert prefix[|prefix| - 1] == ' ';
    assert SpaceFree(QueryFillers);
    DeleteWordsAppend(prefix, query, QueryFillers);
  }

  /** Leading whitespace is all `trim` removes from a string without trailing whitespace. */
  lemma TrimAfterSpaces(spaces: string, s: string)
    requires AllWhitespace(spaces) && NoEdgeWhitespace(s)
    ensures Trim(spaces + s) == s
  {
    assert spaces + s + "" == spaces + s;
    TrimUnique(spaces, s, "");
  }

  /** Deleting the filler words from " play " leaves two spaces. */
  lemma QueryFillersOnPrefix()
    ensures DeleteWords(" play ", QueryFillers) == "  "
  {
    var fillers := QueryFillers;
    assert fillers[0] == "pe" && fillers[1..][0] == "play";
    LacksChar(" play ", "pe", 'e');
    PlayDeleted();
    SpacesKeepFillers(fillers[1..][1..]);
  }

  lemma PlayDeleted()
    ensures DeleteAll(" play ", "play") == "  "
  {
    var t := " play ";
    assert t[..4] != "play" && t[1..][..4] == "play" && t[1..][4..] == " ";
    assert DeleteAll(t[1..], "play") == DeleteAll(" ", "play") == " ";
  }

  /** Spaces hold none of the last three filler words. */
  lemma SpacesKeepFillers(rest: seq<string>)
    requires rest == ["chalao", "lagao", "gana"]
    ensures DeleteWords("  ", rest) == "  "
  {
    var t := "  ";
    LacksChar(t, "chalao", 'c');
    LacksChar(t, "lagao", 'l');
    LacksChar(t, "gana", 'g');
  }

  /** "whatsapp <name> ko bhejo <message>" sends `message` to `name` when the
      name is one word, is not "ko" and holds no "bhejo". */
  lemma WhatsAppRoundTrip(name: string, message: string)
    requires name != "" && ' ' !in name && name != "ko"
    requires !Contains(name, "bhejo")
    requires NoEdgeWhitespace(message)
    ensures Classify("whatsapp " + name + " ko bhejo " + message) == SendWhatsApp(name, message)
  {
    WhatsAppPhraseMessage(name, message);
    ContactOfPhrase(name, message);
    PhraseStartsWithWhatsApp(name, message);
    WhatsAppRuleSends("whatsapp " + name + " ko bhejo " + message, name, message);
  }

  lemma PhraseStartsWithWhatsApp(name: string, message: string)
    ensures Contains("whatsapp " + name + " ko bhejo " + message, "whatsapp")
  {
    var u := "whatsapp " + name + " ko bhejo " + message;
    assert u[..8] == "whatsapp";
    ContainsSelf(u, "whatsapp");
  }

  /** An utterance holding "whatsapp" and "bhejo" is always a WhatsApp send. */
  lemma WhatsAppRuleSends(u: string, name: string, message: string)
    requires Contains(u, "whatsapp") && Contains(u, "bhejo")
    requires ContactName(u) == name && MessageBody(u) == message
    ensures Classify(u) == SendWhatsApp(name, message)
  {
    RuleWhatsApp(u);
    FirstMatchChain(u);
  }

  /** The text after the first "bhejo" of the phrase is the message. */
  lemma WhatsAppPhraseMessage(name: string, message: string)
    requires ' ' !in name && !Contains(name, "bhejo")
    requires NoEdgeWhitespace(message)
    ensures Contains("whatsapp " + name + " ko bhejo " + message, "bhejo")
    ensures MessageBody("whatsapp " + name + " ko bhejo " + message) == message
  {
    var u := "whatsapp " + name + " ko bhejo " + message;
    AfterBhejo(name, message);
    TrimAfterSpaces(" ", message);
    assert Contains(u, "bhejo") by {
      assert SubstringAfter(u, "bhejo") != u;
    }
    var k := |u| - |" " + message| - 5;
    assert FirstAt(u, "bhejo", k) && u[k + 5..] == " " + message;
  }

  lemma AfterBhejo(name: string, message: string)
    requires !Contains(name, "bhejo")
    ensures SubstringAfter("whatsapp " + name + " ko bhejo " + message, "bhejo") == " " + message
  {
    var head := "whatsapp " + name + " ko ";
    assert "whatsapp " + name + " ko bhejo " + message == head + "bhejo" + (" " + message);
    HeadLacksBhejo(name);
    SubstringAfterPrefix(head, "bhejo", " " + message);
  }

  lemma HeadLacksBhejo(name: string)
    requires !Contains(name, "bhejo")
    ensures !Contains("whatsapp " + name + " ko ", "bhejo")
  {
    LacksChar("whatsapp ", "bhejo", 'b');
    ConcatLacks("whatsapp ", name, "bhejo");
    LacksChar(" ko ", "bhejo", 'b');
    ConcatLacks("whatsapp " + name, " ko ", "bhejo");
  }

  /** The words of "whatsapp <name> ko bhejo <message>" put `name` just before the first "ko". */
  lemma ContactOfPhrase(name: string, message: string)
    requires name != "" && ' ' !in name && name != "ko"
    ensures ContactName("whatsapp " + name + " ko bhejo " + message) == name
  {
    var u := "whatsapp " + name + " ko bhejo " + message;
    PhraseWords(name, message);
    var words := Split(u);
    assert words[..4] == ["whatsapp", name, "ko", "bhejo"];
    assert words[0] == "whatsapp" && words[1] == name && words[2] == "ko";
    assert FirstWordAt(words, "ko", 2);
  }

  lemma PhraseWords(name: string, message: string)
    requires ' ' !in name
    ensures Split("whatsapp " + name + " ko bhejo " + message)
         == ["whatsapp", name, "ko", "bhejo"] + Split(message)
  {
    var t3 := "bhejo" + " " + message;
    var t2 := "ko" + " " + t3;
    var t1 := name + " " + t2;
    assert "whatsapp " + name + " ko bhejo " + message == "whatsapp" + " " + t1;
    SplitFirstWord("bhejo", message);
    SplitFirstWord("ko", t3);
    SplitFirstWord(name, t2);
    SplitFirstWord("whatsapp", t1);
  }

  // ---------------------------------------------------------------------
  // The extraction as written: deletions splice words, the contact is the
  // word before "ko" whatever that word is
  // ---------------------------------------------------------------------

  /** Each filler is deleted once, left to right, so deleting "kholo" from
      "kkholoholo" joins the remains into a new "kholo", which survives. */
  lemma OpenNameSplicesFiller()
    ensures OpenAppName("kkholoholo") == "kholo"
  {
    SplicedKholo();
    OpenNameOfDeletions("kkholoholo", "kholo");
    KholoTrimmed();
  }

  lemma OpenNameOfDeletions(u: string, d: string)
    requires DeleteWords(u, OpenFillers) == d
    ensures OpenAppName(u) == Trim(d)
  {
  }

  lemma KholoTrimmed()
    ensures Trim("kholo") == "kholo"
  {
    assert "" + "kholo" + "" == "kholo";
    TrimUnique("", "kholo", "");
  }

  lemma SplicedKholo()
    ensures DeleteWords("kkholoholo", OpenFillers) == "kholo"
  {
    SplicedKholoFirstPass();
    LacksChar("kholo", "open", 'p');
    LacksChar("kholo", "donna", 'd');
    assert OpenFillers[1..] == ["open", "donna"];
  }

  lemma SplicedKholoFirstPass()
    ensures DeleteAll("kkholoholo", "kholo") == "kholo"
  {
    var s := "kkholoholo";
    KholoFirstAtOne();
    DeleteAllScan(s, "kholo", 1);
    assert s[..1] == "k" && s[6..] == "holo";
    assert DeleteAll("holo", "kholo") == "holo";
  }

  lemma KholoFirstAtOne()
    ensures FirstAt("kkholoholo", "kholo", 1)
  {
    var s := "kkholoholo";
    var t := "kholoholo";
    assert s[1..] == t && t[..5] == "kholo";
    assert s[1..6] == t[..5];
    assert s[0..5][1] == 'k';
  }

  /** The query of "youtube play <q>": the fillers deleted from `q`, trimmed. */
  lemma YouTubePhraseAnyQuery(q: string)
    ensures YouTubeQuery("youtube play " + q) == Trim(DeleteWords(q, QueryFillers))
  {
    var d := DeleteWords(q, QueryFillers);
    var spaces := "  ";
    assert AllWhitespace(spaces) by {
      assert spaces[0] == ' ' && spaces[1] == ' ';
    }
    TrimDropsLeadingWhitespace(spaces, d);
    QueryAfterPrefix(q);
  }

  lemma QueryAfterPrefix(q: string)
    ensures YouTubeQuery("youtube play " + q) == Trim("  " + DeleteWords(q, QueryFillers))
  {
    AfterYouTube(q);
    FillersSplitAtPrefix(q);
    QueryFillersOnPrefix();
  }

  /** A filler is deleted from inside a word too: "peppa pig" loses its "pe". */
  lemma FillerInsideWordDeleted()
    ensures DeleteWords("peppa pig", QueryFillers) == "ppa pig"
  {
    var s := "peppa pig";
    assert s[..2] == "pe" && s[2..] == "ppa pig";
    LacksChar("ppa pig", "pe", 'e');
    assert DeleteAll(s, "pe") == "ppa pig";
    RestLacksFillers();
  }

  lemma RestLacksFillers()
    ensures DeleteWords("ppa pig", QueryFillers[1..]) == "ppa pig"
  {
    var t := "ppa pig";
    LacksChar(t, "play", 'l');
    LacksChar(t, "chalao", 'c');
    LacksChar(t, "lagao", 'l');
    LacksChar(t, "gana", 'n');
    var rest := QueryFillers[1..];
    assert forall i :: 0 <= i < |rest| ==> !Contains(t, rest[i]);
  }

  /** "whatsapp bhejo ko <rest>" sends "ko <rest>" to a contact named
      "bhejo": the contact is the word before the first "ko" and the message
      starts after the first "bhejo", whatever their order. */
  lemma ContactBeforeKo(rest: string)
    requires rest != "" && NoEdgeWhitespace(rest)
    ensures Classify("whatsapp bhejo ko " + rest) == SendWhatsApp("bhejo", "ko " + rest)
  {
    BhejoKoContact(rest);
    BhejoKoMessage(rest);
    BhejoKoStartsWithWhatsApp(rest);
    WhatsAppRuleSends("whatsapp bhejo ko " + rest, "bhejo", "ko " + rest);
  }

  lemma BhejoKoWords(rest: string)
    ensures Split("whatsapp bhejo ko " + rest) == ["whatsapp", "bhejo", "ko"] + Split(rest)
  {
    var t2 := "ko" + " " + rest;
    var t1 := "bhejo" + " " + t2;
    assert "whatsapp bhejo ko " + rest == "whatsapp" + " " + t1;
    SplitFirstWord("ko", rest);
    SplitFirstWord("bhejo", t2);
    SplitFirstWord("whatsapp", t1);
  }

  lemma BhejoKoContact(rest: string)
    ensures ContactName("whatsapp bhejo ko " + rest) == "bhejo"
  {
    var words := Split("whatsapp bhejo ko " + rest);
    BhejoKoWords(rest);
    assert words[..3] == ["whatsapp", "bhejo", "ko"];
    assert words[1] == "bhejo" && words[2] == "ko" && words[0] != "ko" && words[1] != "ko";
    assert FirstWordAt(words, "ko", 2);
  }

  lemma BhejoKoAfterBhejo(rest: string)
    ensures SubstringAfter("whatsapp bhejo ko " + rest, "bhejo") == " ko " + rest
  {
    assert "whatsapp bhejo ko " + rest == "whatsapp " + "bhejo" + (" ko " + rest);
    LacksChar("whatsapp ", "bhejo", 'b');
    SubstringAfterPrefix("whatsapp ", "bhejo", " ko " + rest);
  }

  lemma BhejoKoMessage(rest: string)
    requires rest != "" && NoEdgeWhitespace(rest)
    ensures Contains("whatsapp bhejo ko " + rest, "bhejo")
    ensures MessageBody("whatsapp bhejo ko " + rest) == "ko " + rest
  {
    var u := "whatsapp bhejo ko " + rest;
    BhejoKoAfterBhejo(rest);
    assert " ko " + rest == " " + ("ko " + rest);
    assert NoEdgeWhitespace("ko " + rest);
    TrimAfterSpaces(" ", "ko " + rest);
    assert Contains(u, "bhejo") by {
      assert |SubstringAfter(u, "bhejo")| < |u|;
    }
  }

  lemma BhejoKoStartsWithWhatsApp(rest: string)
    ensures Contains("whatsapp bhejo ko " + rest, "whatsapp")
  {
    var u := "whatsapp bhejo ko " + rest;
    assert u[..8] == "whatsapp";
    ContainsSelf(u, "whatsapp");
  }
}

=== FILE: Launcher.dfy ===
/** `openApp`: resolves a spoken application name against the installed
    packages, first by a case-insensitive exact label match over the whole
    list, then by a substring match of the lower-cased name in the
    lower-cased label. The package list is given in enumeration order; the
    launch itself is the `Launch(index)` action of the caller. */
module Launcher {
  import opened Wrappers
  import opened Lists
  import opened Strings

  /** One installed package: its application label, or None when the
      package has no application info. */
  type App = Option<string>

  /** `app.applicationInfo?.loadLabel(pm).toString()`: a package without
      application info stringifies to "null". */
  function Label(app: App): string {
    match app
    case Some(text) => text
    case None => "null"
  }

  predicate ExactMatch(app: App, name: string) {
    EqualsIgnoreCase(Label(app), name)
  }

  predicate FuzzyMatch(app: App, name: string) {
    Contains(Lower(Label(app)), Lower(name))
  }

  /** An exact match is also a substring match. */
  lemma ExactIsFuzzy(app: App, name: string)
    ensures ExactMatch(app, name) ==> FuzzyMatch(app, name)
  {
    if ExactMatch(app, name) {
      ContainsSelf(Lower(Label(app)), Lower(name));
    }
  }

  /** The index of the package `openApp(name)` launches, or None when it
      returns false. */
  function OpenApp(apps: seq<App>, name: string): (r: Option<nat>)
    ensures r.Some? ==> r.value < |apps|
    ensures (exists i :: 0 <= i < |apps| && ExactMatch(apps[i], name)) ==>
      && r.Some?
      && ExactMatch(apps[r.value], name)
      && forall j :: 0 <= j < r.value ==> !ExactMatch(apps[j], name)
    ensures (forall i :: 0 <= i < |apps| ==> !ExactMatch(apps[i], name)) && r.Some? ==>
      && FuzzyMatch(apps[r.value], name)
      && forall j :: 0 <= j < r.value ==> !FuzzyMatch(apps[j], name)
    ensures r.None? <==> forall i :: 0 <= i < |apps| ==> !FuzzyMatch(apps[i], name)
  {
    match FirstIndex(apps, (a: App) => ExactMatch(a, name))
    case Some(i) =>
      ExactIsFuzzy(apps[i], name);
      Some(i)
    case None =>
      FirstIndex(apps, (a: App) => FuzzyMatch(a, name))
  }

  /** The first exact match is launched. */
  lemma FirstExactWins(apps: seq<App>, name: string, j: nat)
    requires j < |apps| && ExactMatch(apps[j], name)
    requires forall k :: 0 <= k < j ==> !ExactMatch(apps[k], name)
    ensures OpenApp(apps, name) == Some(j)
  {
    var r := OpenApp(apps, name);
    assert r.Some? && ExactMatch(apps[r.value], name);
  }

  /** An exact match later in the list beats a substring match earlier in it. */
  lemma ExactBeatsEarlierFuzzy(apps: seq<App>, name: string, i: nat, j: nat)
    requires i < j < |apps|
    requires FuzzyMatch(apps[i], name) && ExactMatch(apps[j], name)
    requires forall k :: 0 <= k < j ==> !ExactMatch(apps[k], name)
    ensures OpenApp(apps, name) == Some(j)
  {
    FirstExactWins(apps, name, j);
  }

  /** An empty name is contained in every label, so unless some label is
      itself empty the first package is launched. */
  lemma {:induction false} EmptyNameOpensFirst(apps: seq<App>)
    requires |apps| > 0
    requires forall i :: 0 <= i < |apps| ==> Label(apps[i]) != ""
    ensures OpenApp(apps, "") == Some(0)
  {
    ContainsSelf(Lower(Label(apps[0])), Lower(""));
    forall i | 0 <= i < |apps|
      ensures !ExactMatch(apps[i], "")
    {
      assert |Lower(Label(apps[i]))| > 0;
    }
  }

  /** A package without application info answers to the name "null". */
  lemma NullLabelAnswersNull(apps: seq<App>)
    requires |apps| > 0 && apps[0].None?
    ensures OpenApp(apps, "NULL") == Some(0)
  {
    assert Lower("null") == Lower("NULL");
  }
}

=== FILE: Lists.dfy ===
/** Small sequence utilities shared by the command interpreter, the
    launcher and the UI driver: first-match search, counting and repetition. */
module Lists {
  import opened Wrappers

  /** The index of the first element satisfying `p`: the shape of every
      `for (x in xs) if (...) return ...` loop and of `List.indexOf`. */
  function FirstIndex<T>(s: seq<T>, p: T -> bool): (r: Option<nat>)
    ensures r.Some? ==> r.value < |s| && p(s[r.value])
    ensures r.Some? ==> forall j :: 0 <= j < r.value ==> !p(s[j])
    ensures r.None? <==> forall j :: 0 <= j < |s| ==> !p(s[j])
  {
    if |s| == 0 then None
    else if p(s[0]) then Some(0)
    else
      match FirstIndex(s[1..], p)
      case None => None
      case Some(k) => Some(k + 1)
  }

  /** Number of elements satisfying `p`. */
  function CountIf<T>(s: seq<T>, p: T -> bool): (n: nat)
    ensures n <= |s|
  {
    if |s| == 0 then 0 else (if p(s[0]) then 1 else 0) + CountIf(s[1..], p)
  }

  /** Number of occurrences of `x`. */
  function Count<T(==)>(s: seq<T>, x: T): nat {
    CountIf(s, y => y == x)
  }

  /** `n` copies of `x`. */
  function Repeat<T>(x: T, n: nat): (r: seq<T>)
    ensures |r| == n
    ensures forall i :: 0 <= i < n ==> r[i] == x
  {
    seq(n, _ => x)
  }

  lemma {:induction false} CountIfAppend<T>(a: seq<T>, b: seq<T>, p: T -> bool)
    ensures CountIf(a + b, p) == CountIf(a, p) + CountIf(b, p)
    decreases |a|
  {
    if |a| == 0 {
      assert a + b == b;
    } else {
      assert (a + b)[1..] == a[1..] + b;
      CountIfAppend(a[1..], b, p);
    }
  }

  lemma CountAppend<T>(a: seq<T>, b: seq<T>, x: T)
    ensures Count(a + b, x) == Count(a, x) + Count(b, x)
  {
    CountIfAppend(a, b, y => y == x);
  }

  lemma {:induction false} CountRepeat<T>(x: T, y: T, n: nat)
    ensures Count(Repeat(x, n), y) == if x == y then n else 0
    decreases n
  {
    if n > 0 {
      assert Repeat(x, n)[1..] == Repeat(x, n - 1);
      CountRepeat(x, y, n - 1);
    }
  }

  lemma CountSingleton<T>(x: T, y: T)
    ensures Count([x], y) == if x == y then 1 else 0
  {
    assert [x][1..] == [];
  }
}

=== FILE: Strings.dfy ===
/** The Kotlin string operations the command interpreter is built from,
    stated over `seq<char>`: `contains`, `indexOf`, `substringAfter`,
    `replace(word, "")`, `trim`, `split(" ")` and `lowercase`. */
module Strings {
  import opened Wrappers

  // ---------------------------------------------------------------------
  // Whitespace and trimming
  // ---------------------------------------------------------------------

  /** Kotlin's `Char.isWhitespace` on the JVM: `Character.isWhitespace`
      (tab to carriage return, the four separators U+001C..U+001F and the
      space separators except U+00A0, U+2007 and U+202F) or
      `Character.isSpaceChar`, which adds those three back. */
  predicate IsWhitespace(c: char) {
    var n := c as int;
    || n == 0x20
    || 0x09 <= n <= 0x0D
    || 0x1C <= n <= 0x1F
    || n == 0xA0
    || n == 0x1680
    || 0x2000 <= n <= 0x200A
    || n == 0x2028 || n == 0x2029
    || n == 0x202F || n == 0x205F || n == 0x3000
  }

  predicate AllWhitespace(s: string) {
    forall i :: 0 <= i < |s| ==> IsWhitespace(s[i])
  }

  /** Neither the first nor the last character is whitespace. */
  predicate NoEdgeWhitespace(s: string) {
    |s| == 0 || (!IsWhitespace(s[0]) && !IsWhitespace(s[|s| - 1]))
  }

  function TrimStart(s: string): (r: string)
    ensures |r| <= |s| && r == s[|s| - |r|..]
    ensures AllWhitespace(s[..|s| - |r|])
    ensures |r| == 0 || !IsWhitespace(r[0])
  {
    if |s| > 0 && IsWhitespace(s[0]) then TrimStart(s[1..]) else s
  }

  function TrimEnd(s: string): (r: string)
    ensures |r| <= |s| && r == s[..|r|]
    ensures AllWhitespace(s[|r|..])
    ensures |r| == 0 || !IsWhitespace(r[|r| - 1])
  {
    if |s| > 0 && IsWhitespace(s[|s| - 1]) then TrimEnd(s[..|s| - 1]) else s
  }

  /** `r` occurs in `s` at `i` with only whitespace around it. */
  predicate TrimmedAt(s: string, r: string, i: int) {
    && 0 <= i <= |s| - |r|
    && s[i..i + |r|] == r
    && AllWhitespace(s[..i])
    && AllWhitespace(s[i + |r|..])
  }

  /** Kotlin's `String.trim()`. */
  function Trim(s: string): (r: string)
    ensures NoEdgeWhitespace(r)
    ensures exists i :: TrimmedAt(s, r, i)
  {
    var t := TrimStart(s);
    var r := TrimEnd(t);
    TrimmedBetween(s, t, r);
    r
  }

  /** A suffix after leading whitespace, cut before trailing whitespace,
      sits in the whole string with only whitespace around it. */
  lemma TrimmedBetween(s: string, t: string, r: string)
    requires |t| <= |s| && t == s[|s| - |t|..] && AllWhitespace(s[..|s| - |t|])
    requires |r| <= |t| && r == t[..|r|] && AllWhitespace(t[|r|..])
    ensures TrimmedAt(s, r, |s| - |t|)
  {
    assert s[|s| - |t|..][..|r|] == s[|s| - |t|..|s| - |t| + |r|];
    assert s[|s| - |t| + |r|..] == t[|r|..];
  }

  lemma {:induction false} TrimStartSkips(a: string, t: string)
    requires AllWhitespace(a)
    requires |t| == 0 || !IsWhitespace(t[0])
    ensures TrimStart(a + t) == t
    decreases |a|
  {
    if |a| == 0 {
      assert a + t == t;
    } else {
      assert (a + t)[1..] == a[1..] + t;
      TrimStartSkips(a[1..], t);
    }
  }

  lemma {:induction false} TrimEndSkips(t: string, b: string)
    requires AllWhitespace(b)
    requires |t| == 0 || !IsWhitespace(t[|t| - 1])
    ensures TrimEnd(t + b) == t
    decreases |b|
  {
    if |b| == 0 {
      assert t + b == t;
    } else {
      assert (t + b)[..|t + b| - 1] == t + b[..|b| - 1];
      TrimEndSkips(t, b[..|b| - 1]);
    }
  }

  /** The converse of `Trim`'s contract: whitespace around a string without
      whitespace at its edges is exactly what `trim` removes. */
  lemma TrimUnique(a: string, r: string, b: string)
    requires AllWhitespace(a) && AllWhitespace(b)
    requires NoEdgeWhitespace(r)
    ensures Trim(a + r + b) == r
  {
    if |r| == 0 {
      assert a + r + b == (a + b) + r;
      assert AllWhitespace(a + b);
      TrimStartSkips(a + b, r);
      assert TrimStart(a + r + b) == [];
    } else {
      assert a + r + b == a + (r + b);
      TrimStartSkips(a, r + b);
      TrimEndSkips(r, b);
    }
  }

  /** Whitespace in front of a text does not change what `trim` returns. */
  lemma TrimDropsLeadingWhitespace(a: string, s: string)
    requires AllWhitespace(a)
    ensures Trim(a + s) == Trim(s)
  {
    TrimStartDropsWhitespace(a, s);
  }

  lemma {:induction false} TrimStartDropsWhitespace(a: string, s: string)
    requires AllWhitespace(a)
    ensures TrimStart(a + s) == TrimStart(s)
    decreases |a|
  {
    if |a| == 0 {
      assert a + s == s;
    } else {
      assert (a + s)[1..] == a[1..] + s;
      TrimStartDropsWhitespace(a[1..], s);
    }
  }

  lemma TrimIdempotent(s: string)
    ensures Trim(Trim(s)) == Trim(s)
  {
    var r := Trim(s);
    assert [] + r + [] == r;
    TrimUnique([], r, []);
  }

  // ---------------------------------------------------------------------
  // Occurrences: contains, indexOf, substringAfter
  // ---------------------------------------------------------------------

  /** `p` occurs in `s` starting at index `i`. */
  predicate StartsAt(s: string, p: string, i: int) {
    0 <= i && i + |p| <= |s| && s[i..i + |p|] == p
  }

  /** `i` is the first index at which `p` occurs in `s`. */
  predicate FirstAt(s: string, p: string, i: int) {
    StartsAt(s, p, i) && forall j :: 0 <= j < i ==> !StartsAt(s, p, j)
  }

  /** Kotlin's `CharSequence.contains(other)`. */
  predicate Contains(s: string, p: string) {
    exists i :: 0 <= i <= |s| - |p| && StartsAt(s, p, i)
  }

  /** The empty word is in every text, a word longer than the text is in
      none, and a text contains itself. */
  lemma ContainsEdges(s: string, p: string)
    ensures Contains(s, p) ==> |p| <= |s|
    ensures |p| == 0 ==> Contains(s, p)
    ensures Contains(s, s)
  {
    assert StartsAt(s, s, 0);
    if |p| == 0 {
      assert StartsAt(s, p, 0);
    }
  }

  /** Kotlin's `indexOf(p, from)`, as an option instead of -1. */
  function IndexOfFrom(s: string, p: string, from: nat): (r: Option<nat>)
    ensures r.Some? ==> from <= r.value && StartsAt(s, p, r.value)
    ensures r.Some? ==> forall j :: from <= j < r.value ==> !StartsAt(s, p, j)
    ensures r.None? ==> forall j :: from <= j ==> !StartsAt(s, p, j)
    decreases |s| - from
  {
    if from + |p| > |s| then None
    else if s[from..from + |p|] == p then Some(from)
    else IndexOfFrom(s, p, from + 1)
  }

  function IndexOf(s: string, p: string): (r: Option<nat>)
    ensures r.Some? <==> Contains(s, p)
    ensures r.Some? ==> FirstAt(s, p, r.value)
  {
    IndexOfFrom(s, p, 0)
  }

  /** Kotlin's `substringAfter(p)`: the text after the first occurrence of
      `p`, or the whole string when `p` does not occur. */
  function SubstringAfter(s: string, p: string): (r: string)
    ensures !Contains(s, p) ==> r == s
    ensures Contains(s, p) ==>
      |r| + |p| <= |s| && FirstAt(s, p, |s| - |r| - |p|) && r == s[|s| - |r|..]
  {
    match IndexOf(s, p)
    case Some(k) => s[k + |p|..]
    case None => s
  }

  /** Every string contains itself (and so the empty string contains the empty string). */
  lemma ContainsSelf(s: string, t: string)
    requires |t| <= |s| && s[..|t|] == t
    ensures Contains(s, t)
  {
    assert StartsAt(s, t, 0);
  }

  /** An occurrence in the tail is an occurrence in the whole, shifted by one. */
  lemma ContainsTail(s: string, p: string)
    requires |s| > 0
    ensures Contains(s[1..], p) ==> Contains(s, p)
    ensures Contains(s, p) && !StartsAt(s, p, 0) ==> Contains(s[1..], p)
  {
    if Contains(s[1..], p) {
      var i :| 0 <= i <= |s[1..]| - |p| && StartsAt(s[1..], p, i);
      assert s[i + 1..i + 1 + |p|] == s[1..][i..i + |p|];
      assert StartsAt(s, p, i + 1);
    }
    if Contains(s, p) && !StartsAt(s, p, 0) {
      var i :| 0 <= i <= |s| - |p| && StartsAt(s, p, i);
      assert i > 0;
      assert s[1..][i - 1..i - 1 + |p|] == s[i..i + |p|];
      assert StartsAt(s[1..], p, i - 1);
    }
  }

  /** An occurrence that lies inside the left part of `a + b` is an occurrence in `a`. */
  lemma StartsAtLeft(a: string, b: string, p: string, i: int)
    requires 0 <= i && i + |p| <= |a|
    ensures StartsAt(a + b, p, i) <==> StartsAt(a, p, i)
  {
    assert (a + b)[i..i + |p|] == a[i..i + |p|];
  }

  /** An occurrence that starts in the right part of `a + b` is an occurrence in `b`. */
  lemma StartsAtRight(a: string, b: string, p: string, i: int)
    requires |a| <= i
    ensures StartsAt(a + b, p, i) <==> StartsAt(b, p, i - |a|)
  {
    if i + |p| <= |a + b| {
      assert (a + b)[i..i + |p|] == b[i - |a|..i - |a| + |p|];
    }
  }

  /** Every character covered by an occurrence of `p` is a character of `p`. */
  lemma Covered(s: string, p: string, i: int, k: int)
    requires i <= k < i + |p|
    ensures StartsAt(s, p, i) ==> s[k] in p
  {
    if StartsAt(s, p, i) {
      assert s[k] == s[i..i + |p|][k - i];
    }
  }

  /** No occurrence can straddle the seam of `a + b` when a character next
      to the seam does not appear in `p` at all. */
  lemma ConcatLacks(a: string, b: string, p: string)
    requires !Contains(a, p) && !Contains(b, p)
    requires (|a| > 0 && a[|a| - 1] !in p) || (|b| > 0 && b[0] !in p)
    ensures !Contains(a + b, p)
  {
    var s := a + b;
    forall i | 0 <= i <= |s| - |p|
      ensures !StartsAt(s, p, i)
    {
      if i + |p| <= |a| {
        StartsAtLeft(a, b, p, i);
      } else if i >= |a| {
        StartsAtRight(a, b, p, i);
      } else {
        Covered(s, p, i, |a| - 1);
        Covered(s, p, i, |a|);
      }
    }
  }

  /** `substringAfter` skips a prefix that cannot host the keyword. */
  lemma SubstringAfterPrefix(a: string, p: string, b: string)
    requires |p| > 0 && !Contains(a, p)
    requires |a| == 0 || a[|a| - 1] !in p
    ensures SubstringAfter(a + p + b, p) == b
  {
    var s := a + p + b;
    assert s == a + (p + b);
    assert (p + b)[..|p|] == p;
    StartsAtRight(a, p + b, p, |a|);
    forall j | 0 <= j < |a|
      ensures !StartsAt(s, p, j)
    {
      if j + |p| <= |a| {
        StartsAtLeft(a, p + b, p, j);
      } else {
        Covered(s, p, j, |a| - 1);
      }
    }
    assert FirstAt(s, p, |a|);
    assert s[|a| + |p|..] == b;
  }

  /** An occurrence in either part is an occurrence in the concatenation. */
  lemma ContainsInConcat(a: string, b: string, p: string)
    ensures Contains(a, p) ==> Contains(a + b, p)
    ensures Contains(b, p) ==> Contains(a + b, p)
  {
    if Contains(a, p) {
      var i :| 0 <= i <= |a| - |p| && StartsAt(a, p, i);
      StartsAtLeft(a, b, p, i);
    }
    if Contains(b, p) {
      var i :| 0 <= i <= |b| - |p| && StartsAt(b, p, i);
      StartsAtRight(a, b, p, i + |a|);
    }
  }

  /** A string that lacks one of the characters of `p` cannot contain `p`. */
  lemma LacksChar(s: string, p: string, c: char)
    requires c in p && c !in s
    ensures !Contains(s, p)
  {
    forall i | 0 <= i <= |s| - |p|
      ensures !StartsAt(s, p, i)
    {
      var k :| 0 <= k < |p| && p[k] == c;
      Covered(s, p, i, i + k);
    }
  }

  // ---------------------------------------------------------------------
  // replace(p, "")
  // ---------------------------------------------------------------------

  /** Kotlin's `replace(p, "")`: scans left to right and deletes each
      non-overlapping occurrence of `p`; text that comes together only
      after a deletion is not examined again. */
  function DeleteAll(s: string, p: string): (r: string)
    requires |p| > 0
    ensures |r| <= |s|
    ensures !Contains(s, p) ==> r == s
    ensures Contains(s, p) ==> |r| <= |s| - |p|
    decreases |s|
  {
    if |s| < |p| then s
    else if s[..|p|] == p then
      assert StartsAt(s, p, 0);
      DeleteAll(s[|p|..], p)
    else
      ContainsTail(s, p);
      [s[0]] + DeleteAll(s[1..], p)
  }

  /** `replace` as Kotlin runs it: find the first occurrence with `indexOf`,
      keep the text before it, drop the occurrence and carry on after it.
      Together with `DeleteAll`'s contract for a text without `p`, this
      determines the result completely. */
  lemma DeleteAllScan(s: string, p: string, k: nat)
    requires |p| > 0 && FirstAt(s, p, k)
    ensures DeleteAll(s, p) == s[..k] + DeleteAll(s[k + |p|..], p)
  {
    DeleteAllSkip(s, p, k);
    DeleteAllAtHead(s[k..], p);
    assert s[k..][|p|..] == s[k + |p|..];
  }

  /** Positions where `p` does not start are kept one by one. */
  lemma {:induction false} DeleteAllSkip(s: string, p: string, k: nat)
    requires |p| > 0 && k <= |s|
    requires forall j :: 0 <= j < k ==> !StartsAt(s, p, j)
    ensures DeleteAll(s, p) == s[..k] + DeleteAll(s[k..], p)
    decreases k
  {
    if k > 0 {
      assert !StartsAt(s, p, 0);
      DeleteAllStep(s, p);
      forall j | 0 <= j < k - 1
        ensures !StartsAt(s[1..], p, j)
      {
        StartsAtTail(s, p, j);
      }
      DeleteAllSkip(s[1..], p, k - 1);
      TailSlice(s, k);
      ConsPrefix(s, k, DeleteAll(s, p), DeleteAll(s[1..], p), DeleteAll(s[k..], p));
    }
  }

  lemma TailSlice(s: string, k: nat)
    requires 0 < k <= |s|
    ensures s[1..][k - 1..] == s[k..]
  {
  }

  /** A kept first character in front of a kept prefix of the tail. */
  lemma ConsPrefix(s: string, k: nat, whole: string, tail: string, rest: string)
    requires 0 < k <= |s|
    requires whole == [s[0]] + tail && tail == s[1..][..k - 1] + rest
    ensures whole == s[..k] + rest
  {
    assert [s[0]] + s[1..][..k - 1] == s[..k];
  }

  lemma DeleteAllAtHead(s: string, p: string)
    requires |p| > 0 && StartsAt(s, p, 0)
    ensures DeleteAll(s, p) == DeleteAll(s[|p|..], p)
  {
    assert s[..|p|] == p;
  }

  lemma DeleteAllStep(s: string, p: string)
    requires |p| > 0 && |s| > 0 && !StartsAt(s, p, 0)
    ensures DeleteAll(s, p) == [s[0]] + DeleteAll(s[1..], p)
  {
  }

  lemma StartsAtTail(s: string, p: string, j: nat)
    requires |s| > 0
    ensures StartsAt(s[1..], p, j) <==> StartsAt(s, p, j + 1)
  {
    assert s == [s[0]] + s[1..];
    StartsAtRight([s[0]], s[1..], p, j + 1);
  }

  /** A string has at most one first occurrence of a pattern. */
  lemma FirstAtUnique(s: string, p: string, i: int, j: int)
    requires FirstAt(s, p, i) && FirstAt(s, p, j)
    ensures i == j
  {
  }

  /** `DeleteAll` returns its input unchanged exactly when there is nothing to delete. */
  lemma DeleteAllUnchanged(s: string, p: string)
    requires |p| > 0
    ensures DeleteAll(s, p) == s <==> !Contains(s, p)
  {
  }

  /** Deletion distributes over a seam whose left character is not part of `p`. */
  lemma {:induction false} DeleteAllAppend(a: string, b: string, p: string)
    requires |p| > 0
    requires |a| == 0 || a[|a| - 1] !in p
    ensures DeleteAll(a + b, p) == DeleteAll(a, p) + DeleteAll(b, p)
    decreases |a|
  {
    if |a| == 0 {
      assert a + b == b;
    } else if |a| < |p| {
      DeleteAllShortPrefix(a, b, p);
    } else if a[..|p|] == p {
      assert (a + b)[..|p|] == p;
      assert (a + b)[|p|..] == a[|p|..] + b;
      DeleteAllAppend(a[|p|..], b, p);
    } else {
      assert (a + b)[..|p|] == a[..|p|];
      assert (a + b)[1..] == a[1..] + b;
      DeleteAllAppend(a[1..], b, p);
    }
  }

  /** The case of `DeleteAllAppend` where `a` is too short to hold `p`. */
  lemma {:induction false} DeleteAllShortPrefix(a: string, b: string, p: string)
    requires 0 < |a| < |p|
    requires a[|a| - 1] !in p
    ensures DeleteAll(a + b, p) == a + DeleteAll(b, p)
    decreases |a|
  {
    var s := a + b;
    Covered(s, p, 0, |a| - 1);
    if |s| < |p| {
      assert DeleteAll(b, p) == b;
    } else {
      assert s[..|p|] != p by {
        assert !StartsAt(s, p, 0);
      }
      assert DeleteAll(s, p) == [s[0]] + DeleteAll(s[1..], p);
      assert s[1..] == a[1..] + b;
      if |a| == 1 {
        assert a[1..] + b == b;
        assert a == [s[0]];
      } else {
        DeleteAllShortPrefix(a[1..], b, p);
        assert [a[0]] + a[1..] == a;
      }
    }
  }

  /** A last character that is not part of `p` survives the deletion. */
  lemma {:induction false} DeleteAllKeepsLast(a: string, p: string)
    requires |p| > 0 && |a| > 0 && a[|a| - 1] !in p
    ensures |DeleteAll(a, p)| > 0 && DeleteAll(a, p)[|DeleteAll(a, p)| - 1] == a[|a| - 1]
    decreases |a|
  {
    if |a| < |p| {
    } else if a[..|p|] == p {
      assert |a| > |p| by {
        Covered(a, p, 0, |p| - 1);
        assert StartsAt(a, p, 0);
      }
      DeleteAllKeepsLast(a[|p|..], p);
    } else if |a| > 1 {
      DeleteAllKeepsLast(a[1..], p);
    } else {
      assert DeleteAll(a[1..], p) == [];
    }
  }

  /** Deletes every word of `words`, the first word first, as a chain of
      `replace(word, "")` calls. */
  function DeleteWords(s: string, words: seq<string>): (r: string)
    requires forall i :: 0 <= i < |words| ==> |words[i]| > 0
    ensures |r| <= |s|
    ensures (forall i :: 0 <= i < |words| ==> !Contains(s, words[i])) ==> r == s
    decreases |words|
  {
    if |words| == 0 then s
    else DeleteWords(DeleteAll(s, words[0]), words[1..])
  }

  /** Deleting words distributes over a seam whose left character occurs in none of them. */
  lemma {:induction false} DeleteWordsAppend(a: string, b: string, words: seq<string>)
    requires forall i :: 0 <= i < |words| ==> |words[i]| > 0
    requires |a| > 0 && forall i :: 0 <= i < |words| ==> a[|a| - 1] !in words[i]
    ensures DeleteWords(a + b, words) == DeleteWords(a, words) + DeleteWords(b, words)
    decreases |words|
  {
    if |words| > 0 {
      DeleteAllAppend(a, b, words[0]);
      DeleteAllKeepsLast(a, words[0]);
      DeleteWordsAppend(DeleteAll(a, words[0]), DeleteAll(b, words[0]), words[1..]);
    }
  }

  // ---------------------------------------------------------------------
  // split(" ") and its inverse
  // ---------------------------------------------------------------------

  /** Kotlin's `split(" ")`: every space separates two pieces, so runs of
      spaces give empty pieces and the result is never empty. */
  function Split(s: string): (r: seq<string>)
    ensures |r| >= 1
    ensures forall i :: 0 <= i < |r| ==> ' ' !in r[i]
  {
    if |s| == 0 then [""]
    else
      var rest := Split(s[1..]);
      if s[0] == ' ' then [""] + rest
      else [[s[0]] + rest[0]] + rest[1..]
  }

  /** Gluing the pieces of `split(" ")` back with single spaces gives the text. */
  lemma {:induction false} JoinSplit(s: string)
    ensures Join(Split(s)) == s
    decreases |s|
  {
    if |s| > 0 {
      JoinSplit(s[1..]);
      var rest := Split(s[1..]);
      assert [s[0]] + s[1..] == s;
      if s[0] != ' ' {
        var r := [[s[0]] + rest[0]] + rest[1..];
        assert r[1..] == rest[1..];
        if |rest| > 1 {
          assert Join(rest) == rest[0] + " " + Join(rest[1..]);
          assert Join(r) == [s[0]] + rest[0] + " " + Join(rest[1..]);
        }
      }
    }
  }

  /** The pieces glued back with single spaces. */
  function Join(words: seq<string>): string
    requires |words| >= 1
  {
    if |words| == 1 then words[0] else words[0] + " " + Join(words[1..])
  }

  lemma {:induction false} SplitWord(w: string)
    requires ' ' !in w
    ensures Split(w) == [w]
    decreases |w|
  {
    if |w| > 0 {
      assert w[0] in w;
      assert forall c :: c in w[1..] ==> c in w;
      SplitWord(w[1..]);
      assert [w[0]] + w[1..] == w;
    }
  }

  /** A space splits the words on its left from the words on its right. */
  lemma {:induction false} SplitAppend(a: string, b: string)
    ensures Split(a + " " + b) == Split(a) + Split(b)
    decreases |a|
  {
    var s := a + " " + b;
    if |a| == 0 {
      assert s[0] == ' ' && s[1..] == b;
    } else {
      assert s[1..] == a[1..] + " " + b;
      SplitAppend(a[1..], b);
      if a[0] == ' ' {
      } else {
        var rest := Split(a[1..]);
        assert Split(s[1..]) == rest + Split(b);
      }
    }
  }

  /** A leading word followed by a space is split off as the first piece. */
  lemma SplitFirstWord(w: string, rest: string)
    requires ' ' !in w
    ensures Split(w + " " + rest) == [w] + Split(rest)
  {
    SplitAppend(w, rest);
    SplitWord(w);
  }

  /** The round trip from words to text and back. */
  lemma {:induction false} SplitJoin(words: seq<string>)
    requires |words| >= 1
    requires forall i :: 0 <= i < |words| ==> ' ' !in words[i]
    ensures Split(Join(words)) == words
    decreases |words|
  {
    SplitWord(words[0]);
    if |words| > 1 {
      SplitJoin(words[1..]);
      SplitAppend(words[0], Join(words[1..]));
      assert [words[0]] + words[1..] == words;
    }
  }

  // ---------------------------------------------------------------------
  // Case
  // ---------------------------------------------------------------------

  /** `Char.lowercaseChar` restricted to ASCII letters. */
  function LowerChar(c: char): char {
    if 'A' <= c <= 'Z' then (c as int + 32) as char else c
  }

  /** `String.lowercase()` restricted to ASCII letters. */
  function Lower(s: string): (r: string)
    ensures |r| == |s|
    ensures forall i :: 0 <= i < |s| ==> r[i] == LowerChar(s[i])
  {
    seq(|s|, i requires 0 <= i < |s| => LowerChar(s[i]))
  }

  /** Lower-casing twice is lower-casing once. */
  lemma LowerIdempotent(s: string)
    ensures Lower(Lower(s)) == Lower(s)
  {
    forall i | 0 <= i < |s|
      ensures Lower(Lower(s))[i] == Lower(s)[i]
    {
      var c := s[i];
      assert LowerChar(LowerChar(c)) == LowerChar(c);
    }
  }

  /** `String.equals(other, ignoreCase = true)` restricted to ASCII letters. */
  predicate EqualsIgnoreCase(a: string, b: string)
    ensures EqualsIgnoreCase(a, b) <==>
      |a| == |b| && forall i :: 0 <= i < |a| ==> LowerChar(a[i]) == LowerChar(b[i])
  {
    LowerCharwise(a, b);
    Lower(a) == Lower(b)
  }

  /** Lower-cased texts are equal exactly when they agree character by character. */
  lemma LowerCharwise(a: string, b: string)
    ensures Lower(a) == Lower(b) <==>
      |a| == |b| && forall i :: 0 <= i < |a| ==> LowerChar(a[i]) == LowerChar(b[i])
  {
    if |a| == |b| && forall i :: 0 <= i < |a| ==> LowerChar(a[i]) == LowerChar(b[i]) {
      assert forall i :: 0 <= i < |a| ==> Lower(a)[i] == Lower(b)[i];
    }
  }
}

=== FILE: Tasks.dfy ===
/** The agents and the dispatcher: the WhatsApp-send and YouTube-play task
    scripts, `processCommand` and the recogniser's result handler. Every
    script is a fixed sequence of UI helpers, each of which reads the next
    window snapshot it needs; the delays between the steps only separate
    the snapshots and are not modelled otherwise. */
module Tasks {
  import opened Wrappers
  import opened Lists
  import opened Strings
  import opened Commands
  import opened Ui
  import Launcher

  /** How a task script ended. */
  datatype Outcome =
    | Finished        // the script ran to its last step
    | NoApp           // `openApp` found no matching package
    | NoSearchButton  // YouTube: the search button could not be clicked
    | NotFound        // WhatsApp: the contact was not found within four scrolls

  /** A task script's ending and everything it did on the device. */
  datatype TaskRun = TaskRun(outcome: Outcome, trace: seq<Action>)

  /** A launch action. */
  predicate IsLaunch(a: Action) {
    a.Launch?
  }

  // ---------------------------------------------------------------------
  // executeWhatsAppTask
  // ---------------------------------------------------------------------

  /** The snapshot the WhatsApp script hunts for the contact on first: after
      the back logic's lookups, one for clicking Search and one for typing. */
  function HuntStart(env: seq<Option<Window>>): nat {
    EnsureSearchButtonVisible(env).lookups + 2
  }

  /** The `k`-th snapshot of the contact hunt. */
  function HuntWindow(env: seq<Option<Window>>, k: nat): Option<Window> {
    Snap(env, HuntStart(env) + k)
  }

  /** The contact hunt of the WhatsApp script; it succeeds exactly when one
      of the five snapshots it may read shows the contact clickable. */
  function ContactHunt(contact: string, env: seq<Option<Window>>): (r: FindRun)
    ensures r.found <==> exists k :: 0 <= k <= MaxScrolls && Findable(HuntWindow(env, k), contact)
    ensures Count(r.trace, Scroll) <= MaxScrolls && Count(r.trace, Back) == 0
    ensures Count(r.trace, Ready) == 0 && CountIf(r.trace, IsLaunch) == 0
    ensures r.found ==> |r.trace| > 0 && r.trace[|r.trace| - 1].Click? && r.trace[|r.trace| - 1].target == contact
    ensures !r.found ==> r.trace == Repeat(Scroll, MaxScrolls)
    ensures 1 <= r.lookups <= MaxScrolls + 1
    ensures forall k :: 0 <= k < r.lookups - 1 ==> !Findable(HuntWindow(env, k), contact)
    ensures r.found ==> Findable(HuntWindow(env, r.lookups - 1), contact)
    ensures r.found ==> r.trace == Repeat(Scroll, r.lookups - 1) + [r.trace[|r.trace| - 1]]
  {
    var e := Drop(env, HuntStart(env));
    HuntScrolls(contact, e);
    HuntLooksInOrder(contact, 0, e);
    HuntTrace(contact, 0, e);
    var r := ClickOrScrollToFind(contact, 0, e);
    HuntSucceedsIff(contact, e);
    assert forall k: nat :: Snap(e, k) == HuntWindow(env, k);
    HuntOnlyScrollsAndClicks(contact, e);
    r
  }

  /** The hunt's trace holds scrolls and at most one click. */
  lemma HuntOnlyScrollsAndClicks(text: string, env: seq<Option<Window>>)
    ensures var r := ClickOrScrollToFind(text, 0, env);
      && Count(r.trace, Scroll) <= MaxScrolls && Count(r.trace, Back) == 0
      && Count(r.trace, Ready) == 0 && CountIf(r.trace, IsLaunch) == 0
  {
    var r := ClickOrScrollToFind(text, 0, env);
    HuntScrolls(text, env);
    forall i | 0 <= i < |r.trace|
      ensures r.trace[i].Scroll? || r.trace[i].Click?
    {
    }
    NoneOf(r.trace);
  }

  /** A trace of scrolls and clicks holds no back, ready or launch. */
  lemma {:induction false} NoneOf(trace: seq<Action>)
    requires forall i :: 0 <= i < |trace| ==> trace[i].Scroll? || trace[i].Click?
    ensures Count(trace, Back) == 0 && Count(trace, Ready) == 0 && CountIf(trace, IsLaunch) == 0
  {
    if |trace| > 0 {
      NoneOf(trace[1..]);
    }
  }

  /** Actions that only click or type. */
  predicate Quiet(trace: seq<Action>) {
    forall i :: 0 <= i < |trace| ==> trace[i].Click? || trace[i].SetText?
  }

  /** `trace` ends with a click on a hit of a search for `text`, followed by `tail`. */
  predicate ClickedThen(trace: seq<Action>, text: string, tail: seq<Action>) {
    && |tail| < |trace|
    && trace[|trace| - |tail| - 1].Click?
    && trace[|trace| - |tail| - 1].target == text
    && trace[|trace| - |tail|..] == tail
  }

  /** The snapshot on which the WhatsApp script types the message: the one
      after the snapshot on which the contact was clicked. */
  function SendAt(contact: string, env: seq<Option<Window>>): nat {
    HuntStart(env) + ContactHunt(contact, env).lookups
  }

  /** Click the search button, then type the contact, on two successive snapshots. */
  function SearchSteps(contact: string, env: seq<Option<Window>>, at: nat): (r: seq<Action>)
    ensures Quiet(r) && |r| <= 2
    ensures (|r| > 0 && r[0].Click?) <==> Findable(Snap(env, at), "Search")
    ensures forall i :: 0 <= i < |r| && r[i].Click? ==> i == 0 && r[i].target == "Search"
    ensures forall i :: 0 <= i < |r| && r[i].SetText? ==> i == |r| - 1 && r[i] == SetText(contact)
    ensures SetText(contact) in r <==> Snap(env, at + 1).Some? && Snap(env, at + 1).value.inputFocused
  {
    ClickSomething(Snap(env, at), "Search", "Search", "id/menu_search").Actions()
      + TypeText(Snap(env, at + 1), contact)
  }

  /** Type the message, then click Send, on two successive snapshots. */
  function SendSteps(body: string, env: seq<Option<Window>>, at: nat): (r: seq<Action>)
    ensures Quiet(r) && |r| <= 2
    ensures SetText(body) in r <==> Snap(env, at).Some? && Snap(env, at).value.inputFocused
    ensures forall i :: 0 <= i < |r| && r[i].SetText? ==> i == 0 && r[i] == SetText(body)
    ensures (|r| > 0 && r[|r| - 1].Click?) <==> Findable(Snap(env, at + 1), "Send")
    ensures forall i :: 0 <= i < |r| && r[i].Click? ==> i == |r| - 1 && r[i].target == "Send"
  {
    TypeText(Snap(env, at), body) + ClickSomething(Snap(env, at + 1), "Send", "Send", "id/send").Actions()
  }

  /** What the WhatsApp script does before the contact hunt: launch package
      `i`, make the search button visible, click it and type the contact. */
  function WhatsAppLead(i: nat, contact: string, env: seq<Option<Window>>): seq<Action> {
    var ready := EnsureSearchButtonVisible(env);
    [Launch(i)] + ready.trace + SearchSteps(contact, env, ready.lookups)
  }

  /** `trace` starts with `lead`, followed at once by `mid`. */
  predicate LeadThen(trace: seq<Action>, lead: seq<Action>, mid: seq<Action>) {
    && |lead| + |mid| <= |trace|
    && trace[..|lead|] == lead
    && trace[|lead|..|lead| + |mid|] == mid
  }

  /** `executeWhatsAppTask` once the contact and the message are extracted:
      open WhatsApp, then run the script. */
  function WhatsAppTask(contact: string, body: string, apps: seq<Launcher.App>,
                        env: seq<Option<Window>>): (r: TaskRun)
    ensures r.outcome != NoSearchButton
    ensures r.outcome == NoApp <==> Launcher.OpenApp(apps, "WhatsApp").None?
    ensures r.outcome == NoApp ==> r.trace == []
    ensures r.outcome != NoApp ==>
      && |r.trace| > 0
      && r.trace[0] == Launch(Launcher.OpenApp(apps, "WhatsApp").value)
    ensures r.outcome != NoApp ==>
      (r.outcome == Finished <==>
         exists k :: 0 <= k <= MaxScrolls && Findable(HuntWindow(env, k), contact))
    ensures r.outcome != NoApp ==>
      LeadThen(r.trace, WhatsAppLead(Launcher.OpenApp(apps, "WhatsApp").value, contact, env),
               ContactHunt(contact, env).trace)
    ensures r.outcome == Finished ==> ClickedThen(r.trace, contact, SendSteps(body, env, SendAt(contact, env)))
    ensures r.outcome == NotFound ==> |r.trace| > 0 && r.trace[|r.trace| - 1] == Scroll
    ensures r.outcome == NotFound ==>
      |r.trace| == |WhatsAppLead(Launcher.OpenApp(apps, "WhatsApp").value, contact, env)|
                   + |ContactHunt(contact, env).trace|
    ensures r.outcome == Finished ==>
      |r.trace| == |WhatsAppLead(Launcher.OpenApp(apps, "WhatsApp").value, contact, env)|
                   + |ContactHunt(contact, env).trace| + |SendSteps(body, env, SendAt(contact, env))|
  {
    match Launcher.OpenApp(apps, "WhatsApp")
    case None => TaskRun(NoApp, [])
    case Some(i) => WhatsAppScript(i, contact, body, env)
  }

  /** The script after WhatsApp (package `i`) is launched: make the search
      button visible; click it; type the contact; hunt for the contact; when
      found, type the message and click Send. */
  function WhatsAppScript(i: nat, contact: string, body: string, env: seq<Option<Window>>): (r: TaskRun)
    ensures r.outcome == Finished || r.outcome == NotFound
    ensures |r.trace| > 0 && r.trace[0] == Launch(i)
    ensures r.outcome == Finished <==> exists k :: 0 <= k <= MaxScrolls && Findable(HuntWindow(env, k), contact)
    ensures r.outcome == Finished ==> ClickedThen(r.trace, contact, SendSteps(body, env, SendAt(contact, env)))
    ensures r.outcome == NotFound ==> r.trace[|r.trace| - 1] == Scroll
    ensures LeadThen(r.trace, WhatsAppLead(i, contact, env), ContactHunt(contact, env).trace)
    ensures r.outcome == NotFound ==>
      |r.trace| == |WhatsAppLead(i, contact, env)| + |ContactHunt(contact, env).trace|
    ensures r.outcome == Finished ==>
      |r.trace| == |WhatsAppLead(i, contact, env)| + |ContactHunt(contact, env).trace|
                   + |SendSteps(body, env, SendAt(contact, env))|
  {
    var lead := WhatsAppLead(i, contact, env);
    var hunt := ContactHunt(contact, env);
    if hunt.found then
      var tail := SendSteps(body, env, SendAt(contact, env));
      LeadThenParts(lead, hunt.trace, tail);
      HuntThenSend(lead, hunt.trace, tail, contact);
      TaskRun(Finished, lead + hunt.trace + tail)
    else
      LeadThenParts(lead, hunt.trace, []);
      assert lead + hunt.trace + [] == lead + hunt.trace;
      TaskRun(NotFound, lead + hunt.trace)
  }

  /** A trace made of a lead, a middle part and a tail starts with the lead
      followed by the middle part. */
  lemma LeadThenParts(lead: seq<Action>, mid: seq<Action>, tail: seq<Action>)
    ensures LeadThen(lead + mid + tail, lead, mid)
  {
    var t := lead + mid + tail;
    assert t[..|lead|] == lead;
    assert t[|lead|..|lead| + |mid|] == mid;
  }

  /** A hunt that ends with a click on the contact, followed by the send
      steps, leaves the trace ending with that click and then those steps. */
  lemma HuntThenSend(lead: seq<Action>, hunt: seq<Action>, tail: seq<Action>, contact: string)
    requires |hunt| > 0 && hunt[|hunt| - 1].Click? && hunt[|hunt| - 1].target == contact
    ensures ClickedThen(lead + hunt + tail, contact, tail)
  {
    var t := lead + hunt + tail;
    assert t[|t| - |tail|..] == tail;
    assert t[|t| - |tail| - 1] == hunt[|hunt| - 1];
  }

  /** The WhatsApp script launches once, hands control to the search step
      once, goes back at most twice and scrolls at most four times. */
  lemma WhatsAppScriptBounds(i: nat, contact: string, body: string, env: seq<Option<Window>>)
    ensures var r := WhatsAppScript(i, contact, body, env);
      && CountIf(r.trace, IsLaunch) == 1
      && Count(r.trace, Ready) == 1
      && Count(r.trace, Back) <= MaxBacks
      && Count(r.trace, Scroll) <= MaxScrolls
  {
    var ready := EnsureSearchButtonVisible(env);
    var hunt := ContactHunt(contact, env);
    var steps := SearchSteps(contact, env, ready.lookups);
    var tail := if hunt.found then SendSteps(body, env, SendAt(contact, env)) else [];
    WhatsAppScriptShape(i, contact, body, env);
    assert WhatsAppLead(i, contact, env) + hunt.trace + tail == [Launch(i)] + ready.trace + steps + hunt.trace + tail;
    EnsureSearchCounts(env);
    NoLaunch(ready.trace);
    PiecesBounds(i, ready.trace, steps, hunt.trace, tail);
  }

  /** The WhatsApp script's trace: the lead, the hunt and, when the contact
      was found, the send steps. */
  lemma WhatsAppScriptShape(i: nat, contact: string, body: string, env: seq<Option<Window>>)
    ensures var hunt := ContactHunt(contact, env);
      var tail := if hunt.found then SendSteps(body, env, SendAt(contact, env)) else [];
      WhatsAppScript(i, contact, body, env).trace == WhatsAppLead(i, contact, env) + hunt.trace + tail
  {
  }

  /** The bounds of a script trace from the bounds of its pieces. */
  lemma PiecesBounds(i: nat, ready: seq<Action>, steps: seq<Action>, hunt: seq<Action>, tail: seq<Action>)
    requires Count(ready, Ready) == 1 && Count(ready, Back) <= MaxBacks && Count(ready, Scroll) == 0
    requires CountIf(ready, IsLaunch) == 0
    requires Quiet(steps) && Quiet(tail)
    requires Count(hunt, Scroll) <= MaxScrolls && Count(hunt, Back) == 0
    requires Count(hunt, Ready) == 0 && CountIf(hunt, IsLaunch) == 0
    ensures var t := [Launch(i)] + ready + steps + hunt + tail;
      && CountIf(t, IsLaunch) == 1 && Count(t, Ready) == 1
      && Count(t, Back) <= MaxBacks && Count(t, Scroll) <= MaxScrolls
  {
    QuietCounts(steps);
    QuietCounts(tail);
    LaunchCounts(i);
    FiveCounts([Launch(i)], ready, steps, hunt, tail);
  }

  lemma {:induction false} NoLaunch(trace: seq<Action>)
    requires forall i :: 0 <= i < |trace| ==> !trace[i].Launch?
    ensures CountIf(trace, IsLaunch) == 0
  {
    if |trace| > 0 {
      NoLaunch(trace[1..]);
    }
  }

  lemma {:induction false} QuietCounts(trace: seq<Action>)
    requires Quiet(trace)
    ensures Count(trace, Scroll) == 0 && Count(trace, Back) == 0
    ensures Count(trace, Ready) == 0 && CountIf(trace, IsLaunch) == 0
  {
    if |trace| > 0 {
      QuietCounts(trace[1..]);
    }
  }

  lemma LaunchCounts(i: nat)
    ensures Count([Launch(i)], Scroll) == 0 && Count([Launch(i)], Back) == 0
    ensures Count([Launch(i)], Ready) == 0 && CountIf([Launch(i)], IsLaunch) == 1
  {
    assert [Launch(i)][1..] == [];
  }

  /** Counting over a trace made of five pieces. */
  lemma FiveCounts(a: seq<Action>, b: seq<Action>, c: seq<Action>, d: seq<Action>, e: seq<Action>)
    ensures Count(a + b + c + d + e, Scroll)
         == Count(a, Scroll) + Count(b, Scroll) + Count(c, Scroll) + Count(d, Scroll) + Count(e, Scroll)
    ensures Count(a + b + c + d + e, Back)
         == Count(a, Back) + Count(b, Back) + Count(c, Back) + Count(d, Back) + Count(e, Back)
    ensures Count(a + b + c + d + e, Ready)
         == Count(a, Ready) + Count(b, Ready) + Count(c, Ready) + Count(d, Ready) + Count(e, Ready)
    ensures CountIf(a + b + c + d + e, IsLaunch)
         == CountIf(a, IsLaunch) + CountIf(b, IsLaunch) + CountIf(c, IsLaunch)
          + CountIf(d, IsLaunch) + CountIf(e, IsLaunch)
  {
    FiveCount(a, b, c, d, e, Scroll);
    FiveCount(a, b, c, d, e, Back);
    FiveCount(a, b, c, d, e, Ready);
    CountIfAppend(a, b, IsLaunch);
    CountIfAppend(a + b, c, IsLaunch);
    CountIfAppend(a + b + c, d, IsLaunch);
    CountIfAppend(a + b + c + d, e, IsLaunch);
  }

  lemma FiveCount(a: seq<Action>, b: seq<Action>, c: seq<Action>, d: seq<Action>, e: seq<Action>, x: Action)
    ensures Count(a + b + c + d + e, x) == Count(a, x) + Count(b, x) + Count(c, x) + Count(d, x) + Count(e, x)
  {
    CountAppend(a, b, x);
    CountAppend(a + b, c, x);
    CountAppend(a + b + c, d, x);
    CountAppend(a + b + c + d, e, x);
  }

  /** The WhatsApp task launches once and hands control to the search step
      once when WhatsApp is installed, does nothing when it is not, and never
      goes back more than twice or scrolls more than four times. */
  lemma WhatsAppTaskBounds(contact: string, body: string, apps: seq<Launcher.App>,
                           env: seq<Option<Window>>)
    ensures var r := WhatsAppTask(contact, body, apps, env);
      var ran := if r.outcome == NoApp then 0 else 1;
      && CountIf(r.trace, IsLaunch) == ran
      && Count(r.trace, Ready) == ran
      && Count(r.trace, Back) <= MaxBacks
      && Count(r.trace, Scroll) <= MaxScrolls
  {
    match Launcher.OpenApp(apps, "WhatsApp")
    case None =>
    case Some(i) => WhatsAppScriptBounds(i, contact, body, env);
  }

  // ---------------------------------------------------------------------
  // executeYouTubeTask
  // ---------------------------------------------------------------------

  /** `executeYouTubeTask` once the query is extracted: open YouTube, then
      run the script. */
  function YouTubeTask(query: string, apps: seq<Launcher.App>, env: seq<Option<Window>>): (r: TaskRun)
    ensures r.outcome != NotFound
    ensures r.outcome == NoApp <==> Launcher.OpenApp(apps, "YouTube").None?
    ensures r.outcome == NoApp ==> r.trace == []
    ensures r.outcome == NoSearchButton ==> r.trace == [Launch(Launcher.OpenApp(apps, "YouTube").value)]
    ensures r.outcome != NoApp ==>
      && |r.trace| > 0
      && r.trace[0] == Launch(Launcher.OpenApp(apps, "YouTube").value)
      && (r.outcome == Finished <==> Findable(Snap(env, 0), "Search"))
    ensures r.outcome == Finished ==>
      && |r.trace| >= 2 && r.trace[1].Click? && r.trace[1].target == "Search"
      && r.trace[2..] == AfterSearch(query, env)
  {
    match Launcher.OpenApp(apps, "YouTube")
    case None => TaskRun(NoApp, [])
    case Some(i) => YouTubeScript(i, query, env)
  }

  /** The script after YouTube (package `i`) is launched: click the search
      button or give up; type the query; click the suggestion that shows
      the query, and when there is none fall back to the empty
      `clickFirstItemInList`. */
  function YouTubeScript(i: nat, query: string, env: seq<Option<Window>>): (r: TaskRun)
    ensures r.outcome == Finished || r.outcome == NoSearchButton
    ensures r.outcome == Finished <==> Findable(Snap(env, 0), "Search")
    ensures r.outcome == NoSearchButton ==> r.trace == [Launch(i)]
    ensures 1 <= |r.trace| <= 4 && r.trace[0] == Launch(i) && Quiet(r.trace[1..])
    ensures r.outcome == Finished ==>
      && |r.trace| >= 2 && r.trace[1].Click? && r.trace[1].target == "Search"
      && r.trace[2..] == AfterSearch(query, env)
    ensures query == "" ==> |r.trace| <= 3
  {
    var search := ClickSomething(Snap(env, 0), "Search", "Search", "id/menu_search_icon");
    if search.Missed? then TaskRun(NoSearchButton, [Launch(i)])
    else
      var after := AfterSearch(query, env);
      LaunchClickThen(i, search.Actions(), after);
      TaskRun(Finished, [Launch(i)] + search.Actions() + after)
  }

  /** A launch, one click and then `after`: the pieces sit where they belong. */
  lemma LaunchClickThen(i: nat, click: seq<Action>, after: seq<Action>)
    requires |click| == 1
    ensures var t := [Launch(i)] + click + after;
      && t[0] == Launch(i) && t[1] == click[0] && t[2..] == after && t[1..] == click + after
  {
  }

  /** After the search button: type the query on the next snapshot, then
      click the suggestion showing it on the one after. */
  function AfterSearch(query: string, env: seq<Option<Window>>): (r: seq<Action>)
    ensures Quiet(r) && |r| <= 2
    ensures query == "" ==> |r| <= 1
    ensures SetText(query) in r <==> Snap(env, 1).Some? && Snap(env, 1).value.inputFocused
    ensures forall i :: 0 <= i < |r| && r[i].SetText? ==> i == 0 && r[i] == SetText(query)
    ensures (|r| > 0 && r[|r| - 1].Click?) <==> Findable(Snap(env, 2), query)
    ensures forall i :: 0 <= i < |r| && r[i].Click? ==> i == |r| - 1 && r[i].target == query
  {
    var pick := ClickSomething(Snap(env, 2), query, query, "id/text");
    var fallback := if pick.Missed? then ClickFirstItemInList() else [];
    TypeText(Snap(env, 1), query) + pick.Actions() + fallback
  }

  /** The YouTube task launches at most once and never scrolls, goes back or
      hands control to the back logic. */
  lemma YouTubeTaskBounds(query: string, apps: seq<Launcher.App>, env: seq<Option<Window>>)
    ensures var r := YouTubeTask(query, apps, env);
      && CountIf(r.trace, IsLaunch) == (if r.outcome == NoApp then 0 else 1)
      && Count(r.trace, Ready) == 0 && Count(r.trace, Back) == 0 && Count(r.trace, Scroll) == 0
  {
    var app := Launcher.OpenApp(apps, "YouTube");
    if app.Some? {
      var t := YouTubeScript(app.value, query, env).trace;
      assert t == [Launch(app.value)] + t[1..];
      LaunchThenQuiet(app.value, t[1..]);
    }
  }

  /** A launch followed by clicks and typing. */
  lemma LaunchThenQuiet(i: nat, rest: seq<Action>)
    requires Quiet(rest)
    ensures var t := [Launch(i)] + rest;
      && CountIf(t, IsLaunch) == 1
      && Count(t, Ready) == 0 && Count(t, Back) == 0 && Count(t, Scroll) == 0
  {
    QuietCounts(rest);
    LaunchCounts(i);
    CountAppend([Launch(i)], rest, Scroll);
    CountAppend([Launch(i)], rest, Back);
    CountAppend([Launch(i)], rest, Ready);
    CountIfAppend([Launch(i)], rest, IsLaunch);
  }

  // ---------------------------------------------------------------------
  // processCommand and the recogniser's result handler
  // ---------------------------------------------------------------------

  /** The service's state across utterances: the app the last agent worked
      in, `currentContextApp`. It is written by the agents and never read. */
  datatype Session = Session(contextApp: string)

  /** What handling one utterance did: the state afterwards and the actions. */
  datatype Step = Step(session: Session, trace: seq<Action>)

  /** The actions of the simple "open" branch: launch the package `openApp` picks, if any. */
  function OpenActions(apps: seq<Launcher.App>, name: string): (r: seq<Action>)
    ensures r == [] <==> Launcher.OpenApp(apps, name).None?
    ensures r != [] ==> r == [Launch(Launcher.OpenApp(apps, name).value)]
  {
    match Launcher.OpenApp(apps, name)
    case None => []
    case Some(i) => [Launch(i)]
  }

  /** `processCommand`: the classified utterance dispatched to an agent, to
      `openApp`, to the scroll gesture, or to nothing. The agents record
      their app as the context before trying to open it. */
  function ProcessCommand(session: Session, u: string, apps: seq<Launcher.App>,
                          env: seq<Option<Window>>): (r: Step)
    ensures FirstMatch(u) == Some(WhatsAppKind) ==>
      && r.session == Session("WhatsApp")
      && r.trace == WhatsAppTask(ContactName(u), MessageBody(u), apps, env).trace
    ensures FirstMatch(u) == Some(YouTubeKind) ==>
      && r.session == Session("YouTube")
      && r.trace == YouTubeTask(YouTubeQuery(u), apps, env).trace
    ensures FirstMatch(u) == Some(OpenKind) ==>
      r.session == session && r.trace == OpenActions(apps, OpenAppName(u))
    ensures FirstMatch(u) == Some(ScrollKind) ==> r == Step(session, [Scroll])
    ensures FirstMatch(u) == None ==> r == Step(session, [])
  {
    match Classify(u)
    case SendWhatsApp(contact, body) =>
      Step(Session("WhatsApp"), WhatsAppTask(contact, body, apps, env).trace)
    case PlayYouTube(query) =>
      Step(Session("YouTube"), YouTubeTask(query, apps, env).trace)
    case OpenApp(name) => Step(session, OpenActions(apps, name))
    case ScrollDown => Step(session, [Scroll])
    case NoCommand => Step(session, [])
  }

  /** Whatever the utterance and the device, one command launches at most
      one app, goes back at most twice and scrolls at most four times. */
  lemma ProcessCommandBounds(session: Session, u: string, apps: seq<Launcher.App>,
                             env: seq<Option<Window>>)
    ensures var r := ProcessCommand(session, u, apps, env);
      && CountIf(r.trace, IsLaunch) <= 1
      && Count(r.trace, Back) <= MaxBacks
      && Count(r.trace, Scroll) <= MaxScrolls
  {
    var r := ProcessCommand(session, u, apps, env);
    match Classify(u)
    case SendWhatsApp(contact, body) =>
      WhatsAppTaskBounds(contact, body, apps, env);
    case PlayYouTube(query) =>
      YouTubeTaskBounds(query, apps, env);
    case OpenApp(name) =>
      if Launcher.OpenApp(apps, name).Some? {
        LaunchCounts(Launcher.OpenApp(apps, name).value);
      }
    case ScrollDown =>
      CountSingleton(Scroll, Scroll);
      CountSingleton(Scroll, Back);
      assert [Scroll][1..] == [];
    case NoCommand =>
  }

  /** The context app is never read: the actions of a command do not depend on it. */
  lemma ContextNeverRead(s1: Session, s2: Session, u: string, apps: seq<Launcher.App>,
                         env: seq<Option<Window>>)
    ensures ProcessCommand(s1, u, apps, env).trace == ProcessCommand(s2, u, apps, env).trace
  {
  }

  /** `onResults`: the best recognition hypothesis, lower-cased, is processed;
      with no hypothesis nothing happens. */
  function OnResults(session: Session, matches: seq<string>, apps: seq<Launcher.App>,
                     env: seq<Option<Window>>): (r: Step)
    ensures |matches| == 0 ==> r == Step(session, [])
    ensures |matches| > 0 ==> r == ProcessCommand(session, Lower(matches[0]), apps, env)
  {
    if |matches| == 0 then Step(session, [])
    else ProcessCommand(session, Lower(matches[0]), apps, env)
  }

  /** Only the first hypothesis counts, and its letter case does not. */
  lemma OnResultsFirstOnly(session: Session, matches: seq<string>, others: seq<string>,
                           apps: seq<Launcher.App>, env: seq<Option<Window>>)
    requires |matches| > 0
    ensures OnResults(session, matches, apps, env) == OnResults(session, [matches[0]] + others, apps, env)
    ensures OnResults(session, matches, apps, env) == OnResults(session, [Lower(matches[0])], apps, env)
  {
    LowerIdempotent(matches[0]);
  }

  /** "open whatsapp" is an open command, not a WhatsApp task: it launches
      the package labelled "WhatsApp" and leaves the context alone. */
  lemma OpenWhatsAppLaunches(session: Session, env: seq<Option<Window>>)
    ensures ProcessCommand(session, "open whatsapp", [Some("Chrome"), Some("WhatsApp")], env)
         == Step(session, [Launch(1)])
  {
    OpenWhatsAppIsOpen();
    OpenWhatsAppPicksSecond();
  }

  lemma OpenWhatsAppIsOpen()
    ensures FirstMatch("open whatsapp") == Some(OpenKind)
    ensures OpenAppName("open whatsapp") == "whatsapp"
  {
    OpenWhatsAppWords();
    OpenWhatsAppName();
    var u := "open whatsapp";
    FirstMatchChain(u);
    RuleWhatsApp(u);
    RuleYouTube(u);
    RuleOpen(u);
  }

  lemma OpenWhatsAppWords()
    ensures !Contains("open whatsapp", "msg") && !Contains("open whatsapp", "bhejo")
    ensures !Contains("open whatsapp", "send") && !Contains("open whatsapp", "youtube")
    ensures Contains("open whatsapp", "open")
  {
    var u := "open whatsapp";
    LacksChar(u, "msg", 'm');
    LacksChar(u, "bhejo", 'b');
    LacksChar(u, "send", 'd');
    LacksChar(u, "youtube", 'y');
    ContainsSelf(u, "open");
  }

  lemma OpenWhatsAppName()
    ensures OpenAppName("open whatsapp") == "whatsapp"
  {
    assert "open whatsapp" == "open " + "whatsapp";
    LacksChar("whatsapp", "kholo", 'k');
    LacksChar("whatsapp", "open", 'o');
    LacksChar("whatsapp", "donna", 'd');
    OpenPhraseName("whatsapp");
  }

  lemma OpenWhatsAppPicksSecond()
    ensures Launcher.OpenApp([Some("Chrome"), Some("WhatsApp")], "whatsapp") == Some(1)
  {
    var apps: seq<Launcher.App> := [Some("Chrome"), Some("WhatsApp")];
    assert |Lower("Chrome")| != |Lower("whatsapp")|;
    assert Lower("WhatsApp") == Lower("whatsapp");
    Launcher.FirstExactWins(apps, "whatsapp", 1);
  }
}

=== FILE: Ui.dfy ===
/** The UI-automation helpers of the accessibility service: clicking with
    ancestor fallback, clicking by text, typing into the focused field, the
    scroll-and-retry hunt and the back-and-recheck for the search button.

    The foreign application's live tree is seen through a stream of window
    snapshots: every fetch of the active window's root reads the next
    snapshot, and once the stream is exhausted no window is accessible.
    Every helper reports what it did as a trace of abstract actions. */
module Ui {
  import opened Wrappers
  import opened Lists

  /** The clickable flags of a node, then of its parent, and so on up to
      the root. A null node has the empty chain. */
  type Chain = seq<bool>

  /** One snapshot of the active window: what a text search returns (each
      hit given by its chain) and whether some node holds input focus. */
  datatype Window = Window(findByText: string -> seq<Chain>, inputFocused: bool)

  /** The effects the service has on the device. `Click(t, c, d)` clicks
      the node `d` steps up the chain of the `c`-th hit of a text search for
      `t`; `Ready` is the moment a continuation is handed control. */
  datatype Action =
    | Launch(app: nat)
    | Click(target: string, candidate: nat, depth: nat)
    | SetText(text: string)
    | Scroll
    | Back
    | Ready

  // ---------------------------------------------------------------------
  // performClick
  // ---------------------------------------------------------------------

  /** `performClick`: clicks the node itself when it is clickable, otherwise
      tries its parent; the depth of the node that received the click. */
  function PerformClick(node: Chain): (r: Option<nat>)
    ensures r.Some? <==> true in node
    ensures r.Some? ==> r.value < |node| && node[r.value]
    ensures r.Some? ==> forall j :: 0 <= j < r.value ==> !node[j]
  {
    if |node| == 0 then None
    else if node[0] then Some(0)
    else
      match PerformClick(node[1..])
      case None => None
      case Some(d) => Some(d + 1)
  }

  /** On a chain where only the root is clickable the click walks all the way up. */
  lemma {:induction false} PerformClickReachesRoot(node: Chain)
    requires |node| > 0 && node[|node| - 1]
    requires forall j :: 0 <= j < |node| - 1 ==> !node[j]
    ensures PerformClick(node) == Some(|node| - 1)
  {
    assert node[|node| - 1] in node;
  }

  // ---------------------------------------------------------------------
  // clickSomething
  // ---------------------------------------------------------------------

  /** The outcome of `clickSomething`: the text searched for, which hit,
      and which node up its chain, was clicked. */
  datatype ClickOutcome = Clicked(target: string, candidate: nat, depth: nat) | Missed {
    function Actions(): seq<Action> {
      match this
      case Clicked(t, c, d) => [Click(t, c, d)]
      case Missed => []
    }
  }

  /** A text-search hit that `performClick` can click. */
  predicate Clickable(node: Chain) {
    true in node
  }

  /** The snapshot shows a hit for the non-empty `text` that can be clicked. */
  predicate Findable(root: Option<Window>, text: string) {
    && root.Some?
    && text != ""
    && exists i :: 0 <= i < |root.value.findByText(text)| && Clickable(root.value.findByText(text)[i])
  }

  /** `clickSomething(text, desc, viewId)`: without a window or with an empty
      text nothing is clicked; otherwise the text-search hits are tried in
      order and the first one `performClick` succeeds on is clicked. The
      `desc` and `viewId` arguments play no part. */
  function ClickSomething(root: Option<Window>, text: string, desc: string, viewId: string): (r: ClickOutcome)
    ensures root.None? || text == "" ==> r == Missed
    ensures r.Clicked? <==> Findable(root, text)
    ensures r.Clicked? ==>
      var hits := root.value.findByText(text);
      && r.target == text
      && r.candidate < |hits|
      && Clickable(hits[r.candidate])
      && (forall j :: 0 <= j < r.candidate ==> !Clickable(hits[j]))
      && r.depth < |hits[r.candidate]|
      && hits[r.candidate][r.depth]
      && (forall j :: 0 <= j < r.depth ==> !hits[r.candidate][j])
  {
    if root.None? || text == "" then Missed
    else
      var hits := root.value.findByText(text);
      match FirstIndex(hits, (node: Chain) => PerformClick(node).Some?)
      case None => Missed
      case Some(i) => Clicked(text, i, PerformClick(hits[i]).value)
  }

  /** `clickSomething` performs exactly one click when it reports success, and none otherwise. */
  lemma ClickSomethingActs(root: Option<Window>, text: string, desc: string, viewId: string)
    ensures var r := ClickSomething(root, text, desc, viewId);
      |r.Actions()| == (if r.Clicked? then 1 else 0)
      && Count(r.Actions(), Scroll) == 0 && Count(r.Actions(), Back) == 0
  {
    var r := ClickSomething(root, text, desc, viewId);
    match r
    case Clicked(t, c, d) =>
      CountSingleton(Click(t, c, d), Scroll);
      CountSingleton(Click(t, c, d), Back);
    case Missed =>
  }

  /** Only the text argument of `clickSomething` matters. */
  lemma ClickSomethingIgnoresDescAndId(root: Option<Window>, text: string,
                                       desc1: string, viewId1: string, desc2: string, viewId2: string)
    ensures ClickSomething(root, text, desc1, viewId1) == ClickSomething(root, text, desc2, viewId2)
  {
  }

  // ---------------------------------------------------------------------
  // typeText and clickFirstItemInList
  // ---------------------------------------------------------------------

  /** `typeText`: sets the text of the input-focused node; when there is no
      window or no focused node nothing is typed. */
  function TypeText(root: Option<Window>, text: string): (r: seq<Action>)
    ensures |r| <= 1
    ensures |r| == 1 <==> root.Some? && root.value.inputFocused
    ensures |r| == 1 ==> r[0] == SetText(text)
  {
    if root.None? then []
    else if root.value.inputFocused then [SetText(text)]
    else []
  }

  /** `clickFirstItemInList` has an empty body in the service: it does
      nothing on the device. */
  function ClickFirstItemInList(): (r: seq<Action>)
    ensures |r| == 0
  {
    []
  }

  // ---------------------------------------------------------------------
  // The stream of window snapshots
  // ---------------------------------------------------------------------

  /** The `k`-th snapshot of the stream; no window once it is exhausted. */
  function Snap(env: seq<Option<Window>>, k: nat): Option<Window> {
    if k < |env| then env[k] else None
  }

  /** The stream after `n` fetches. */
  function Drop(env: seq<Option<Window>>, n: nat): (r: seq<Option<Window>>)
    ensures forall k: nat :: Snap(r, k) == Snap(env, n + k)
  {
    if n <= |env| then env[n..] else []
  }

  // ---------------------------------------------------------------------
  // clickOrScrollToFind
  // ---------------------------------------------------------------------

  /** The number of scrolls `clickOrScrollToFind` gives up after. */
  const MaxScrolls: nat := 4

  /** Scrolls still allowed when the hunt is at `attempt`. */
  function ScrollBudget(attempt: nat): nat {
    if attempt >= MaxScrolls then 0 else MaxScrolls - attempt
  }

  /** Outcome of the hunt: whether the target was clicked, the actions, and
      how many snapshots (lookups) were consumed. */
  datatype FindRun = FindRun(found: bool, trace: seq<Action>, lookups: nat)

  /** `clickOrScrollToFind(text, attempt)`: look for `text` and click it; if
      it is not there and fewer than four scrolls were made, scroll and look
      again on the next snapshot. */
  function ClickOrScrollToFind(text: string, attempt: nat, env: seq<Option<Window>>): (r: FindRun)
    ensures 1 <= r.lookups <= ScrollBudget(attempt) + 1
    ensures !r.found ==> r.lookups == ScrollBudget(attempt) + 1
    decreases ScrollBudget(attempt)
  {
    if Findable(Snap(env, 0), text) then
      FindRun(true, ClickSomething(Snap(env, 0), text, text, "").Actions(), 1)
    else if attempt >= MaxScrolls then FindRun(false, [], 1)
    else
      var rest := ClickOrScrollToFind(text, attempt + 1, Drop(env, 1));
      FindRun(rest.found, [Scroll] + rest.trace, rest.lookups + 1)
  }

  /** The hunt reads its snapshots in order and stops at the first one that
      shows the target: every earlier snapshot lacks it, and the last one
      read shows it exactly when the hunt succeeds. */
  lemma HuntLooksInOrder(text: string, attempt: nat, env: seq<Option<Window>>)
    ensures var r := ClickOrScrollToFind(text, attempt, env);
      && (forall k :: 0 <= k < r.lookups - 1 ==> !Findable(Snap(env, k), text))
      && (r.found <==> Findable(Snap(env, r.lookups - 1), text))
  {
    HuntMissesBefore(text, attempt, env);
    HuntStopsAt(text, attempt, env);
  }

  lemma {:induction false} HuntMissesBefore(text: string, attempt: nat, env: seq<Option<Window>>)
    ensures var r := ClickOrScrollToFind(text, attempt, env);
      forall k :: 0 <= k < r.lookups - 1 ==> !Findable(Snap(env, k), text)
    decreases ScrollBudget(attempt)
  {
    if !Findable(Snap(env, 0), text) && attempt < MaxScrolls {
      var d := Drop(env, 1);
      var rest := ClickOrScrollToFind(text, attempt + 1, d);
      HuntMissesBefore(text, attempt + 1, d);
      assert ClickOrScrollToFind(text, attempt, env).lookups == rest.lookups + 1;
      forall k | 1 <= k < rest.lookups
        ensures !Findable(Snap(env, k), text)
      {
        assert Snap(env, k) == Snap(d, k - 1);
      }
    }
  }

  lemma {:induction false} HuntStopsAt(text: string, attempt: nat, env: seq<Option<Window>>)
    ensures var r := ClickOrScrollToFind(text, attempt, env);
      r.found <==> Findable(Snap(env, r.lookups - 1), text)
    decreases ScrollBudget(attempt)
  {
    if !Findable(Snap(env, 0), text) && attempt < MaxScrolls {
      var d := Drop(env, 1);
      var rest := ClickOrScrollToFind(text, attempt + 1, d);
      HuntStopsAt(text, attempt + 1, d);
      assert ClickOrScrollToFind(text, attempt, env) == FindRun(rest.found, [Scroll] + rest.trace, rest.lookups + 1);
      assert Snap(env, rest.lookups) == Snap(d, rest.lookups - 1);
    }
  }

  /** The hunt's actions: one scroll per snapshot that lacked the target,
      then the click when the target was found. */
  lemma {:induction false} HuntTrace(text: string, attempt: nat, env: seq<Option<Window>>)
    ensures var r := ClickOrScrollToFind(text, attempt, env);
      && (r.found ==> r.trace == Repeat(Scroll, r.lookups - 1)
                                 + ClickSomething(Snap(env, r.lookups - 1), text, text, "").Actions())
      && (!r.found ==> r.trace == Repeat(Scroll, r.lookups - 1))
    decreases ScrollBudget(attempt)
  {
    if !Findable(Snap(env, 0), text) && attempt < MaxScrolls {
      var d := Drop(env, 1);
      var rest := ClickOrScrollToFind(text, attempt + 1, d);
      HuntTrace(text, attempt + 1, d);
      var r := ClickOrScrollToFind(text, attempt, env);
      assert r == FindRun(rest.found, [Scroll] + rest.trace, rest.lookups + 1);
      var scrolls := Repeat(Scroll, rest.lookups - 1);
      assert [Scroll] + scrolls == Repeat(Scroll, rest.lookups);
      if rest.found {
        assert Snap(env, rest.lookups) == Snap(d, rest.lookups - 1);
        var click := ClickSomething(Snap(d, rest.lookups - 1), text, text, "").Actions();
        assert [Scroll] + (scrolls + click) == ([Scroll] + scrolls) + click;
      }
    }
  }

  /** Started from attempt 0, the hunt succeeds exactly when one of the
      first five snapshots shows a clickable hit for the target. */
  lemma HuntSucceedsIff(text: string, env: seq<Option<Window>>)
    ensures ClickOrScrollToFind(text, 0, env).found
        <==> exists k :: 0 <= k <= MaxScrolls && Findable(Snap(env, k), text)
  {
    var r := ClickOrScrollToFind(text, 0, env);
    HuntLooksInOrder(text, 0, env);
    if r.found {
      var k := r.lookups - 1;
      assert 0 <= k <= MaxScrolls && Findable(Snap(env, k), text);
    } else {
      forall k | 0 <= k <= MaxScrolls
        ensures !Findable(Snap(env, k), text)
      {
        if k == MaxScrolls {
          assert k == r.lookups - 1;
        }
      }
    }
  }

  /** The hunt scrolls at most four times, exactly four times when it fails,
      and its only click, if any, is its last action and is on the target. */
  lemma HuntScrolls(text: string, env: seq<Option<Window>>)
    ensures var r := ClickOrScrollToFind(text, 0, env);
      && Count(r.trace, Scroll) == r.lookups - 1 <= MaxScrolls
      && (!r.found ==> Count(r.trace, Scroll) == MaxScrolls)
      && (forall i :: 0 <= i < |r.trace| - 1 ==> r.trace[i] == Scroll)
      && (r.found ==> |r.trace| == r.lookups && r.trace[|r.trace| - 1].Click?
                      && r.trace[|r.trace| - 1].target == text)
      && (!r.found ==> r.trace == Repeat(Scroll, MaxScrolls))
  {
    var r := ClickOrScrollToFind(text, 0, env);
    var n := r.lookups - 1;
    HuntTrace(text, 0, env);
    HuntLooksInOrder(text, 0, env);
    CountRepeat(Scroll, Scroll, n);
    if r.found {
      var o := ClickSomething(Snap(env, n), text, text, "");
      assert o.Actions() == [Click(text, o.candidate, o.depth)];
      CountSingleton(Click(text, o.candidate, o.depth), Scroll);
      CountAppend(Repeat(Scroll, n), o.Actions(), Scroll);
    }
  }

  /** The scenario of a target revealed only by the third scroll. */
  lemma HuntAfterThreeScrolls(text: string, env: seq<Option<Window>>)
    requires forall k :: 0 <= k < 3 ==> !Findable(Snap(env, k), text)
    requires Findable(Snap(env, 3), text)
    ensures ClickOrScrollToFind(text, 0, env).found
    ensures Count(ClickOrScrollToFind(text, 0, env).trace, Scroll) == 3
  {
    HuntLooksInOrder(text, 0, env);
    HuntScrolls(text, env);
  }

  // ---------------------------------------------------------------------
  // ensureSearchButtonVisible
  // ---------------------------------------------------------------------

  /** The number of back actions `ensureSearchButtonVisible` may issue. */
  const MaxBacks: nat := 2

  /** A window is present and a text search for "Search" finds something. */
  predicate SearchVisible(root: Option<Window>) {
    root.Some? && |root.value.findByText("Search")| > 0
  }

  /** Outcome of the back-and-recheck: the actions and the snapshots consumed. */
  datatype ReadyRun = ReadyRun(trace: seq<Action>, lookups: nat)

  /** `ensureSearchButtonVisible(onReady)`: when "Search" is not visible go
      back and look again; if it is still not visible go back once more and
      hand over regardless. */
  function EnsureSearchButtonVisible(env: seq<Option<Window>>): (r: ReadyRun)
    ensures |r.trace| >= 1
    ensures r.trace == Repeat(Back, |r.trace| - 1) + [Ready]
    ensures |r.trace| - 1 <= MaxBacks
    ensures |r.trace| - 1 == 0 <==> SearchVisible(Snap(env, 0))
    ensures |r.trace| - 1 == 1 <==> !SearchVisible(Snap(env, 0)) && SearchVisible(Snap(env, 1))
    ensures r.lookups == if |r.trace| == 1 then 1 else 2
  {
    if SearchVisible(Snap(env, 0)) then ReadyRun([Ready], 1)
    else if SearchVisible(Snap(env, 1)) then ReadyRun([Back, Ready], 2)
    else ReadyRun([Back, Back, Ready], 2)
  }

  /** The continuation runs exactly once and at most two backs precede it. */
  lemma EnsureSearchCounts(env: seq<Option<Window>>)
    ensures var r := EnsureSearchButtonVisible(env);
      Count(r.trace, Ready) == 1 && Count(r.trace, Back) <= MaxBacks
      && Count(r.trace, Scroll) == 0
  {
    var r := EnsureSearchButtonVisible(env);
    var n := |r.trace| - 1;
    CountAppend(Repeat(Back, n), [Ready], Ready);
    CountAppend(Repeat(Back, n), [Ready], Back);
    CountAppend(Repeat(Back, n), [Ready], Scroll);
    CountRepeat(Back, Ready, n);
    CountRepeat(Back, Back, n);
    CountRepeat(Back, Scroll, n);
    CountSingleton(Ready, Ready);
    CountSingleton(Ready, Back);
    CountSingleton(Ready, Scroll);
  }
}

=== FILE: Wrappers.dfy ===
/** The optional value used wherever the service works with a nullable
    reference or an index that may be absent. */
module Wrappers {

  datatype Option<+T> = None | Some(value: T)
}
